=== FILE: README.md ===
# Bluetti BLE device reader, modelled in Dafny

This project models the Bluetooth request/response core of the Bluetti
integration's `DeviceReader`
(`custom_components/bluetti_bt/bluetti_bt_lib/bluetooth/device_reader.py`) and
proves properties of the model. It covers four pieces:

- **The notification handler** (`_notification_handler`). It is a step
  function over one pending exchange: the future, the current command and the
  response buffer (module `Correlator`).
- **The command exchange** (`_async_send_command`). The exchange state is
  reset before the write. A Bleak error, the per-command timeout, a device
  exception frame, an AT echo and a missing response all give empty bytes. A
  checksum `ParseError` escapes, and so does any other exception from the
  write, the poll deadline's cancellation included (module `Requests`).
- **The reconnect loop** at the head of `read_data` (module `Connection`).
- **The poll** (`read_data`). It is a fold over the main commands and then,
  for each pack from 1 to `pack_num_max`, a pack select followed by the pack
  commands. Around the fold sit the notifier attach, the `except`/`finally`
  handling and a filter that replaces the main commands and turns pack
  polling off (modules `Poll`, `PollProperties`, `PollLifecycle`,
  `PollResults`).

The BLE transport is replaced by a `Script` (module `Transport`). It fixes
the outcome of each connect attempt and of `start_notify`. For each exchange,
in the order the reader sends them, it fixes either the notification chunks
that arrive before the per-command timeout, or the fault that interrupts the
exchange.

The command codec (`response_size`, `is_valid_response`,
`is_exception_response`, `parse_response`) is a record of uninterpreted
functions (`Protocol.Codec`). So are the device parser and the pack-select
builder (fields of `Poll.Device`).

The poll's `async_timeout` deadline is the fault `PollDeadline`. It is
delivered at whichever await was running when the deadline fired. It is a
cancellation, so neither the `except Exception` of the connect loop nor
`_async_send_command` catches it, and `read_data` turns it into `None`.

A poll runs under the reader's lock, one at a time, so it is modelled as a
function of the reader state it starts from. It returns the result, the
reader state after teardown, and the trace of transport calls made
(`Connect`, `StartNotify`, `Request`, `SelectPack`, `StopNotify`,
`Disconnect`).

Some behaviours the model makes explicit:

- **The retry branch never runs.** The reconnect loop re-raises a failure on
  attempt 1, so its retry branch, with its sleep, can never be reached.
  `connect` is called at most once per poll, and not at all when
  `max_retries` is 0 (`Connection.ConnectLoopIsSingleAttempt`).
- **A short Modbus exception frame hangs the exchange.** The handler's
  Modbus branch reads the third buffer byte. On an exception frame shorter
  than three bytes the handler fails before resolving the future, so the
  exchange stays pending until the per-command timeout, unless later bytes
  complete the frame (`Correlator.Verdict`).
- **A checksum failure on a pack select escapes the poll.** The pack-select
  exchange has no `ParseError` handler. After teardown, `read_data` raises
  instead of returning the fields gathered so far
  (`PollResults.PackSelectChecksumEscapes`).
- **A boolean `pack_num` counts as an int.** Python's `isinstance(x, int)`
  accepts booleans, so a parsed `pack_num` of `True` matches pack 1, and
  `False` matches no pack (`Fields.BooleanPackNumber`).
- **A reply without `pack_num` is discarded.** When a pack reply has no
  `pack_num` field, `parsed.get("pack_num")` is `None`, which fails the
  `isinstance` test, so the reply contributes nothing
  (`Fields.PackNumberIs`).

## Model

| member | source | states |
|---|---|---|
| Correlator.Verdict | custom_components/bluetti_bt/bluetti_bt_lib/bluetooth/device_reader.py:211-219 | The buffer resolves with itself only when it has the response size and passes the checksum. A checksum failure comes only from a buffer of the response size that fails the checksum. A Modbus resolution needs a size mismatch and the exception predicate. The exchange stays pending exactly when the size differs and there is no exception frame of at least three bytes. |
| Correlator.VerdictDecides | custom_components/bluetti_bt/bluetti_bt_lib/bluetooth/device_reader.py:211-219 | On a buffer of the response size the verdict is the buffer itself when the checksum holds and a checksum failure when it does not. On any other size, an exception frame of at least three bytes gives the Modbus error of its third byte. The verdict is never a bad-connection error. |
| Correlator.Notify | custom_components/bluetti_bt/bluetti_bt_lib/bluetooth/device_reader.py:194-219 | With no future, or a done one, nothing changes. An AT echo resolves with a bad-connection error and leaves the buffer alone. Any other chunk is appended. A value resolution is the whole, complete, valid buffer. The command is never changed. |
| Correlator.NotifyAll | custom_components/bluetti_bt/bluetti_bt_lib/bluetooth/device_reader.py:194-219 | A run of notifications keeps the exchange well formed and the command fixed, leaves a settled exchange alone, and resolves with a value or a checksum failure only on a complete buffer. |
| Correlator.NotifyAllAppend | custom_components/bluetti_bt/bluetti_bt_lib/bluetooth/device_reader.py:194-219 | Two runs of notifications act as one run of their concatenation. |
| Correlator.ResolutionIsFinal | custom_components/bluetti_bt/bluetti_bt_lib/bluetooth/device_reader.py:197-200 | Once the future is done, further notifications change nothing, so an exchange is resolved at most once. |
| Correlator.FreshReaderIgnoresNotifications | custom_components/bluetti_bt/bluetti_bt_lib/bluetooth/device_reader.py:35-37 | A reader as constructed, with no future, no command and an empty buffer, is left unchanged by any run of notifications. |
| Correlator.ExceptionCheckOnlyOnLengthMismatch | custom_components/bluetti_bt/bluetti_bt_lib/bluetooth/device_reader.py:211-216 | When the buffer reaches the response size, swapping in any other exception predicate gives the same step. |
| Correlator.ChecksumOnlyOnLengthMatch | custom_components/bluetti_bt/bluetti_bt_lib/bluetooth/device_reader.py:211-219 | When the buffer length differs from the response size, swapping in any other checksum predicate gives the same step. |
| Correlator.ChunksAssemble | custom_components/bluetti_bt/bluetti_bt_lib/bluetooth/device_reader.py:208-219 | Chunks that are not AT echoes, no proper prefix of which decides the frame, leave the concatenated bytes in the buffer and the verdict on them in the future. |
| Correlator.FragmentedEqualsWhole | custom_components/bluetti_bt/bluetti_bt_lib/bluetooth/device_reader.py:203-219 | Under the same conditions, a fragmented response ends in exactly the state one notification of the whole response gives. |
| Requests.Send | custom_components/bluetti_bt/bluetti_bt_lib/bluetooth/device_reader.py:158-192 | After a send the command is current and a delivered exchange has a done future. Non-empty bytes are a complete, valid response. An escaping `ParseError` comes from a complete buffer with a failed checksum. An escaping fault is the scripted one, and one the send does not catch. |
| Requests.FailuresCollapseToEmpty | custom_components/bluetti_bt/bluetti_bt_lib/bluetooth/device_reader.py:177-192 | Bleak and timeout faults give empty bytes and any other fault escapes. No notification, a pending future after the chunks, an AT echo, a device exception frame and every resolution with an error other than a checksum failure give empty bytes. A value resolution returns its bytes. |
| Requests.CompleteFrameOutcome | custom_components/bluetti_bt/bluetti_bt_lib/bluetooth/device_reader.py:168-175 | A complete frame in one notification is returned whole when its checksum holds, and escapes as a `ParseError` when it does not. |
| Requests.FragmentedSend | custom_components/bluetti_bt/bluetti_bt_lib/bluetooth/device_reader.py:168-175 | A response split over several notifications gives the same send result, and the same exchange state, as the whole response in one. |
| Requests.SameFoldSameSend | custom_components/bluetti_bt/bluetti_bt_lib/bluetooth/device_reader.py:171-192 | The send depends on the notifications only through the handler's final state. |
| Connection.Attempts | custom_components/bluetti_bt/bluetti_bt_lib/bluetooth/device_reader.py:63-75 | A connected client makes no call. Without a raise, the client is connected exactly when it was already connected or a call was made. A raise leaves it disconnected after at least one call. |
| Connection.ConnectLoop | custom_components/bluetti_bt/bluetti_bt_lib/bluetooth/device_reader.py:63-75 | At most one connect call, none when already connected or when `max_retries` < 1. A raise happens after exactly one call. |
| Connection.ConnectLoopIsSingleAttempt | custom_components/bluetti_bt/bluetti_bt_lib/bluetooth/device_reader.py:63-75 | The loop equals a single attempt: connect once if needed, and re-raise its failure. |
| Fields.MergedKeys | custom_components/bluetti_bt/bluetti_bt_lib/bluetooth/device_reader.py:85-97 | A key is in the merge of successive updates exactly when some update holds it. |
| Fields.MergedLastWins | custom_components/bluetti_bt/bluetti_bt_lib/bluetooth/device_reader.py:85-97 | The merged value of a key is the one from the last update holding it. |
| Fields.DecimalRoundTrip | custom_components/bluetti_bt/bluetti_bt_lib/bluetooth/device_reader.py:137 | Reading back the digits of `str(pack)` gives `pack`. |
| Fields.Suffixed | custom_components/bluetti_bt/bluetti_bt_lib/bluetooth/device_reader.py:136-137 | Every key of the result ends in the suffix and, with the suffix removed, is a parsed key whose value it carries. |
| Fields.SuffixedKeepsFields | custom_components/bluetti_bt/bluetti_bt_lib/bluetooth/device_reader.py:136-137 | Every parsed field appears under its suffixed key with its value. |
| Fields.BooleanPackNumber | custom_components/bluetti_bt/bluetti_bt_lib/bluetooth/device_reader.py:124-128 | For packs from 1 on, a boolean `pack_num` matches exactly when it is `True` and the pack is 1. |
| Poll.MainPhase | custom_components/bluetti_bt/bluetti_bt_lib/bluetooth/device_reader.py:85-97 | The main phase adds only exchanges and keeps the reader flags. Run to the end, it sends every command. A `ParseError` never ends it. |
| Poll.PackCommands | custom_components/bluetti_bt/bluetti_bt_lib/bluetooth/device_reader.py:113-140 | The same for one pack's commands: only exchanges, all sent when it runs to the end, never ended by a `ParseError`. |
| Poll.PackPhase | custom_components/bluetti_bt/bluetti_bt_lib/bluetooth/device_reader.py:100-140 | The pack phase keeps the reader flags, sends no fewer exchanges than before, and only appends request and pack-select calls to the trace. |
| Poll.PackExchangesCount | custom_components/bluetti_bt/bluetti_bt_lib/bluetooth/device_reader.py:102-113 | When every pack from `pack` to `pack_num_max` takes `width` exchanges, the total is `width` times the number of packs in that range, and zero when `pack` is past the last one. |
| Poll.Open | custom_components/bluetti_bt/bluetti_bt_lib/bluetooth/device_reader.py:63-82 | Opening makes only the connect loop's calls plus one `start_notify` exactly when the notifier was detached and connecting succeeded. `has_notifier` is set only after `start_notify` succeeds. The session runs exactly when neither raised. |
| PollProperties.PackFieldsShape | custom_components/bluetti_bt/bluetti_bt_lib/bluetooth/device_reader.py:124-137 | A pack reply contributes only when its parsed `pack_num` is the selected pack. Every key it contributes ends in `str(pack)` and carries the parsed value of the key it extends. |
| PollProperties.MainPhaseStep | custom_components/bluetti_bt/bluetti_bt_lib/bluetooth/device_reader.py:85-97 | The first main command ends the poll exactly when its exchange is fatal. Otherwise it adds its own contribution and hands over to the rest. |
| PollProperties.MainPhaseFolds | custom_components/bluetti_bt/bluetti_bt_lib/bluetooth/device_reader.py:85-97 | A main phase run to the end leaves the left fold of the per-command contributions in the field map. |
| PollProperties.MainDataMerges | custom_components/bluetti_bt/bluetti_bt_lib/bluetooth/device_reader.py:95 | That fold equals the starting map updated with the merge of the contributions. |
| PollProperties.MainPhaseMerges | custom_components/bluetti_bt/bluetti_bt_lib/bluetooth/device_reader.py:85-97 | A main phase run to the end holds the starting fields updated, in command order, with each command's own contribution. A `ParseError` or an unparseable reply contributes nothing. |
| PollProperties.MainPhaseRunsUnlessSomeFatal | custom_components/bluetti_bt/bluetti_bt_lib/bluetooth/device_reader.py:85-97 | The main phase runs to the end exactly when no command, taken in order, meets a fatal exchange. |
| PollProperties.NoneBadEveryIndex | custom_components/bluetti_bt/bluetti_bt_lib/bluetooth/device_reader.py:85-97 | The command-by-command check agrees with the check at every index. |
| PollProperties.MainPhaseRunsUnlessFatal | custom_components/bluetti_bt/bluetti_bt_lib/bluetooth/device_reader.py:85-97 | The main phase runs to the end exactly when no command's exchange lets out an exception other than `ParseError`. |
| PollProperties.MainPhaseSendsInOrder | custom_components/bluetti_bt/bluetti_bt_lib/bluetooth/device_reader.py:85-88 | The main phase's calls are requests for its commands, in order, one per exchange. |
| PollProperties.PackCommandsStep | custom_components/bluetti_bt/bluetti_bt_lib/bluetooth/device_reader.py:113-140 | The first pack command ends the poll when its exchange is fatal. Otherwise it adds its own contribution, uses one exchange, and hands over to the rest. |
| PollProperties.PackCommandsFold | custom_components/bluetti_bt/bluetti_bt_lib/bluetooth/device_reader.py:113-140 | Pack commands run to the end leave the left fold of their contributions in the field map. |
| PollProperties.PackDataMerges | custom_components/bluetti_bt/bluetti_bt_lib/bluetooth/device_reader.py:136-137 | That fold equals the starting map updated with the merge of the pack contributions. |
| PollProperties.PackCommandsMerge | custom_components/bluetti_bt/bluetti_bt_lib/bluetooth/device_reader.py:113-140 | One pack's commands run to the end merge their contributions in order. |
| PollProperties.PackCommandsSuffixes | custom_components/bluetti_bt/bluetti_bt_lib/bluetooth/device_reader.py:113-140 | Whether or not they run to the end, one pack's commands change only keys ending in `str(pack)`. |
| PollProperties.PackPhaseSuffixes | custom_components/bluetti_bt/bluetti_bt_lib/bluetooth/device_reader.py:100-140 | Over packs p to `pack_num_max`, every changed field sits under a key ending in `str(q)` for a pack q in that range. |
| PollProperties.PackPhaseChecksumFromSelect | custom_components/bluetti_bt/bluetti_bt_lib/bluetooth/device_reader.py:102-108 | A `ParseError` leaves the pack phase only from a pack select, which is then the last call made. |
| PollProperties.PackCommandsRunUnlessSomeFatal | custom_components/bluetti_bt/bluetti_bt_lib/bluetooth/device_reader.py:113-140 | One pack's commands run to the end exactly when none of their exchanges, taken in order, is fatal. |
| PollProperties.PackPhaseFolds | custom_components/bluetti_bt/bluetti_bt_lib/bluetooth/device_reader.py:100-140 | A pack phase run to the end leaves the pack-by-pack fold of the packs' merged contributions in the field map. |
| PollProperties.PackPhaseDataMerges | custom_components/bluetti_bt/bluetti_bt_lib/bluetooth/device_reader.py:136-137 | That fold equals the starting map updated with the packs' contributions merged in pack order. |
| PollProperties.PackPhaseMerges | custom_components/bluetti_bt/bluetti_bt_lib/bluetooth/device_reader.py:100-140 | A pack phase run to the end holds the starting fields updated pack by pack with each pack's merged contribution, each pack's commands meeting the exchanges right after its select. |
| PollProperties.PackPhaseSends | custom_components/bluetti_bt/bluetti_bt_lib/bluetooth/device_reader.py:100-140 | A pack phase run to the end sends one select and one exchange per pack command for every pack from `pack` to `pack_num_max`. |
| PollProperties.PackPhaseRunsUnlessFatal | custom_components/bluetti_bt/bluetti_bt_lib/bluetooth/device_reader.py:100-140 | The pack phase runs to the end exactly when, pack by pack, the select lets nothing escape and no pack command meets a fatal exchange. |
| PollProperties.MainPhaseStopsAtInterrupt | custom_components/bluetti_bt/bluetti_bt_lib/bluetooth/device_reader.py:85-97 | An exchange inside the main phase interrupted by a fault the send does not catch ends the phase with that fault, right after that exchange. |
| PollProperties.PackCommandsStopAtInterrupt | custom_components/bluetti_bt/bluetti_bt_lib/bluetooth/device_reader.py:113-140 | The same for one pack's commands. |
| PollProperties.PackPhaseStopsAtInterrupt | custom_components/bluetti_bt/bluetti_bt_lib/bluetooth/device_reader.py:100-140 | The same for the pack phase, the pack selects included. |
| PollLifecycle.ExtendsTransitive | custom_components/bluetti_bt/bluetti_bt_lib/bluetooth/device_reader.py:84-140 | Phases run one after another keep the reader flags and add only exchanges. |
| PollLifecycle.SessionCalls | custom_components/bluetti_bt/bluetti_bt_lib/bluetooth/device_reader.py:60-140 | The `try` body makes exactly the connect loop's connect calls, and one `start_notify` exactly when it attaches. It makes no stop or disconnect, and leaves `has_notifier` set exactly when the notifier was or became attached. |
| PollLifecycle.TeardownCalls | custom_components/bluetti_bt/bluetti_bt_lib/bluetooth/device_reader.py:148-154 | Teardown only appends calls, never a connect or `start_notify`. It does nothing in persistent mode. Otherwise it appends a stop only when attached, then a disconnect. |
| PollLifecycle.ConnectCalledAtMostOnce | custom_components/bluetti_bt/bluetti_bt_lib/bluetooth/device_reader.py:63-75 | A whole poll calls `connect` at most once, and never when already connected or when `max_retries` < 1. |
| PollLifecycle.NotifierStartedOnlyWhenDetached | custom_components/bluetti_bt/bluetti_bt_lib/bluetooth/device_reader.py:78-82 | A poll starts notifications at most once, and only when `has_notifier` was false. |
| PollLifecycle.TeardownCloses | custom_components/bluetti_bt/bluetti_bt_lib/bluetooth/device_reader.py:148-154 | Outside persistent mode teardown leaves the client disconnected with `has_notifier` cleared. It makes one stop exactly when attached, and ends with the only disconnect. |
| PollLifecycle.NonPersistentTeardown | custom_components/bluetti_bt/bluetti_bt_lib/bluetooth/device_reader.py:148-154 | Outside persistent mode every poll of a device ends with exactly one disconnect and a cleared `has_notifier`. It stops notifications exactly when they were attached before or were started successfully in this poll. |
| PollLifecycle.PersistentTeardownKeepsSession | custom_components/bluetti_bt/bluetti_bt_lib/bluetooth/device_reader.py:148-154 | In persistent mode a poll makes no stop or disconnect. The notifier stays attached exactly when it was attached before or was started successfully. |
| PollResults.OpenRuns | custom_components/bluetti_bt/bluetti_bt_lib/bluetooth/device_reader.py:63-82 | A client that connects and a notifier that attaches leave the session running. |
| PollResults.TeardownKeeps | custom_components/bluetti_bt/bluetti_bt_lib/bluetooth/device_reader.py:148-154 | Teardown keeps any property of the calls that stop and disconnect share. |
| PollResults.FilteredBodyTraffic | custom_components/bluetti_bt/bluetti_bt_lib/bluetooth/device_reader.py:53-55 | A filtered session requests only filter commands and never selects a pack. |
| PollResults.FilterDisablesPackPolling | custom_components/bluetti_bt/bluetti_bt_lib/bluetooth/device_reader.py:53-55 | A whole filtered poll, teardown included, makes no pack-select write and requests only filter commands. |
| PollResults.FilteredPollMerges | custom_components/bluetti_bt/bluetti_bt_lib/bluetooth/device_reader.py:53-97 | A filtered poll that returns a map returns exactly the merge, in order, of the filter commands' own contributions. |
| PollResults.FilteredPollKeepsMapUnlessFatal | custom_components/bluetti_bt/bluetti_bt_lib/bluetooth/device_reader.py:142-147 | Once connected, a filtered poll returns a (possibly partial) map exactly when no exchange let out a fatal exception. |
| PollResults.OutcomeIsMapWhenRunning | custom_components/bluetti_bt/bluetti_bt_lib/bluetooth/device_reader.py:142-156 | `read_data` returns a map exactly when its body ran to the end. |
| PollResults.ChecksumEscapesOnlyFromPackSelect | custom_components/bluetti_bt/bluetti_bt_lib/bluetooth/device_reader.py:104-108 | `read_data` raises a `ParseError` only in an unfiltered poll whose last exchange was a pack select. |
| PollResults.PackSelectChecksumEscapes | custom_components/bluetti_bt/bluetti_bt_lib/bluetooth/device_reader.py:104-108 | When the main phase completes and the first pack select fails its checksum, `read_data` raises `ParseError` instead of returning the main-phase fields. |
| PollResults.UnfilteredPollFields | custom_components/bluetti_bt/bluetti_bt_lib/bluetooth/device_reader.py:100-140 | In a returned unfiltered map, every field the main commands did not produce sits under a key ending in `str(p)` for a pack p from 1 to `pack_num_max`. |
| PollResults.SessionStopsAtInterrupt | custom_components/bluetti_bt/bluetti_bt_lib/bluetooth/device_reader.py:60-140 | An exchange of the session interrupted by a fault the send does not catch ends the session with that fault. |
| PollResults.InterruptedExchangeEndsPoll | custom_components/bluetti_bt/bluetti_bt_lib/bluetooth/device_reader.py:142-156 | With or without a filter, a reached exchange interrupted by the poll deadline makes `read_data` return `None`, and one interrupted by any other exception that the send does not catch makes it raise that exception. A Bleak error or a timeout during an exchange is caught by the send, and the poll goes on. |
| PollResults.OpeningFailureEndsPoll | custom_components/bluetti_bt/bluetti_bt_lib/bluetooth/device_reader.py:63-82 | With or without a filter, a failing connect or `start_notify` makes `read_data` return `None` for a Bleak error, a timeout or the deadline, and raise any other exception. |
| PollResults.SessionChecksumFromSelect | custom_components/bluetti_bt/bluetti_bt_lib/bluetooth/device_reader.py:85-140 | A session ends with a `ParseError` only when it has pack commands, right after a pack select. |
| PollResults.SessionAfterMain | custom_components/bluetti_bt/bluetti_bt_lib/bluetooth/device_reader.py:85-140 | A session run to the end holds the main commands' merged contributions after one exchange per main command, and then runs the pack phase from there when there are pack commands. |
| PollResults.SessionRunsAfterMain | custom_components/bluetti_bt/bluetti_bt_lib/bluetooth/device_reader.py:60-140 | Once connected, the session runs to the end exactly when no main command meets a fatal exchange and the pack phase, one exchange per main command in, runs to the end. |
| PollResults.UnfilteredPollKeepsMapUnlessFatal | custom_components/bluetti_bt/bluetti_bt_lib/bluetooth/device_reader.py:60-156 | Once connected, an unfiltered poll returns a map exactly when no main command meets a fatal exchange and, when there are pack commands, every pack's select lets nothing escape and no pack command meets a fatal exchange. |
| PollResults.UnfilteredPollMerges | custom_components/bluetti_bt/bluetti_bt_lib/bluetooth/device_reader.py:85-156 | A returned unfiltered map is the main commands' merged contributions, updated pack by pack with each pack's merged contribution, the first select following the last main command. |

## Left out

- The BLE client (`connect`, `is_connected`, `write_gatt_char`, `start_notify`, `stop_notify`, `disconnect`) is foreign I/O. It is replaced by the scripted outcomes of `Transport.Script`, and the bytes written for a command are not modelled.
- The asyncio machinery is left out: the lock, futures, `wait_for`, `async_timeout` and `sleep`. The lock becomes "one poll at a time". The per-command timeout becomes "the scripted chunks ran out while the future was pending", which cancels the future and gives empty bytes. The poll deadline becomes the fault `PollDeadline`, raised by the exchange, connect or `start_notify` during which it fires. The sleeps are not modelled, so a deadline that fires during the five-second sleep after a pack select is attributed to the next exchange.
- The command codec (`response_size`, `is_valid_response`, `is_exception_response`, `parse_response`), `bluetti_device.parse` and `build_setter_command` live in files that are not part of this model. They are uninterpreted functions. A `ParseError` from parsing is a `None` result, and the parser's value kinds are an abstract `Fields.Value`. An enum value is taken not to be an `int`.
- After an exchange that a fault interrupts, the reader's exchange fields are not modelled. The model keeps the prepared exchange with its pending future. In the code only a poll deadline that fires during the wait for the response cancels that future through `wait_for`, and the buffer may then hold bytes already received. A fault from the write itself strikes before the wait starts, so the code too leaves the future pending and the buffer empty, as the model does. The next send overwrites those fields before its write, and no later result reads them.
- Notifications that arrive while no exchange is pending are ignored by the handler (device_reader.py:197-200), so they are not modelled separately. Stale bytes of an earlier exchange that arrive during a later one are appended to the later exchange's buffer. They are covered because each exchange's scripted chunks are arbitrary, and such bytes are part of them.
- `command.parse_response` and `bluetti_device.parse` are taken to raise nothing but `ParseError`, which the model expresses as a `None` result. In the code, any other exception from them (device_reader.py:87-93 and 116-121) passes the `except ParseError` handlers. Unless it is a `TimeoutError` or a `BleakError`, it escapes `read_data` after teardown. `PollResults.FilteredPollKeepsMapUnlessFatal` and `PollResults.UnfilteredPollKeepsMapUnlessFatal` hold only under this assumption.
- `stop_notify` and `disconnect` in the `finally` block are taken not to raise.
- The client's connection state changes only through the reader's own connect and disconnect calls. A link the device drops is not modelled; it shows up only as faults in the scripted exchanges.
- The per-command timeout and the poll deadline are taken to raise the built-in `TimeoutError`. `_async_send_command` catches the first, and the `except TimeoutError` of `read_data` catches the second, so a deadline gives `None`. This holds from Python 3.11 on, where asyncio's timeout error is that class. On earlier versions neither handler would catch them.
- Python's dict iteration order only affects the order of `update` calls on distinct keys within one reply, so field maps are Dafny maps.
- When `bluetti_device` is `None`, the poll returns `None` without any transport call. This case is part of the definition of `Poll.ReadData`, and no lemma states it separately.
- Logging is left out.
- The two-second sleep of the unreachable retry branch is not modelled.
- The Home Assistant entities in `custom_components/bluetti_bt/button.py` and `custom_components/bluetti_bt/binary_sensor.py` are framework glue around the reader and are not part of this model.

=== FILE: bytes.dfy ===
/** Raw bytes as they travel over the write and notify characteristics. */
module Bytes {

  type Byte = b: int | 0 <= b < 256

  type Bytes = seq<Byte>

  /** b"AT+NAME?\r", echoed by the module when the link is in a confused state. */
  const AtNameQuery: Bytes := [0x41, 0x54, 0x2B, 0x4E, 0x41, 0x4D, 0x45, 0x3F, 0x0D]

  /** b"AT+ADV?\r", the other AT echo. */
  const AtAdvQuery: Bytes := [0x41, 0x54, 0x2B, 0x41, 0x44, 0x56, 0x3F, 0x0D]

  predicate IsAtEcho(chunk: Bytes) {
    chunk == AtNameQuery || chunk == AtAdvQuery
  }

  /** The bytes of a run of notification chunks, in arrival order. */
  function Concat(chunks: seq<Bytes>): (bytes: Bytes)
  {
    if chunks == [] then [] else chunks[0] + Concat(chunks[1..])
  }
}

=== FILE: connection.dfy ===
/** The reconnect loop at the head of `DeviceReader.read_data`. */
module Connection {

  import opened Wrappers
  import opened Errors
  import opened Transport

  /** Whether the client ends up connected, how many connect calls were made, and what was re-raised. */
  datatype ConnectRun = ConnectRun(connected: bool, calls: nat, raised: Option<Fault>)

  /**
    Attempts `attempt` to `maxRetries` of the loop. A connected client breaks
    out at once. A failed connect is re-raised on attempt 1 and on the last
    attempt; in between it is logged and followed by a sleep and a retry. The
    poll deadline is a cancellation, which `except Exception` lets through.
   */
  function Attempts(attempt: int, maxRetries: int, connected: bool, script: int -> ConnectOutcome, calls: nat): (r: ConnectRun)
    requires attempt >= 1
    ensures r.calls >= calls
    ensures r.raised.None? ==> r.connected == (connected || r.calls > calls)
    ensures r.raised.Some? ==> !r.connected && r.calls > calls
    ensures connected ==> r == ConnectRun(true, calls, None)
    decreases maxRetries - attempt
  {
    if attempt > maxRetries || connected then
      ConnectRun(connected, calls, None)
    else
      match script(attempt)
      case Connects => ConnectRun(true, calls + 1, None)
      case ConnectRaises(f) =>
        if f.PollDeadline? || attempt == maxRetries || attempt == 1 then
          ConnectRun(false, calls + 1, Some(f))
        else
          Attempts(attempt + 1, maxRetries, false, script, calls + 1)
  }

  /** `for attempt in range(1, max_retries + 1)`. */
  function ConnectLoop(maxRetries: int, connected: bool, script: int -> ConnectOutcome): (r: ConnectRun)
    ensures r.calls <= 1
    ensures connected || maxRetries < 1 ==> r.calls == 0
    ensures r.raised.None? ==> r.connected == (connected || r.calls == 1)
    ensures r.raised.Some? ==> !r.connected && r.calls == 1
  {
    Attempts(1, maxRetries, connected, script, 0)
  }

  /**
    The loop behaves as a single attempt: the first failure is re-raised, so
    the retry branch with its sleep is never taken and `connect` is called at
    most once per poll.
   */
  lemma ConnectLoopIsSingleAttempt(maxRetries: int, connected: bool, script: int -> ConnectOutcome)
    ensures ConnectLoop(maxRetries, connected, script) ==
              if connected || maxRetries < 1 then ConnectRun(connected, 0, None)
              else match script(1)
                case Connects => ConnectRun(true, 1, None)
                case ConnectRaises(f) => ConnectRun(false, 1, Some(f))
  {
  }
}

=== FILE: correlator.dfy ===
/**
  The single-slot request/response correlator: the pending exchange and the
  notification handler that fills it (`DeviceReader._notification_handler`).
 */
module Correlator {

  import opened Wrappers
  import opened Bytes
  import opened Protocol

  /** What the handler can resolve a future with, besides bytes. */
  datatype HandlerError = BadConnection | ChecksumFailed | ModbusException(code: Byte)

  /** How a future ended: with a value, with an exception, or cancelled by `wait_for`. */
  datatype Resolution = Value(data: Bytes) | Raised(error: HandlerError) | Cancelled

  /** `notify_future`: absent, still pending, or done. */
  datatype Future = NoFuture | Pending | Done(resolution: Resolution)

  /** The reader's exchange fields: `notify_future`, `current_command`, `notify_response`. */
  datatype Exchange = Exchange(future: Future, command: Option<Command>, buffer: Bytes)

  /** The reader as constructed: no future, no command, an empty buffer. */
  const Initial: Exchange := Exchange(NoFuture, None, [])

  /** A pending future always has a command to compare the buffer with. */
  predicate Wellformed(x: Exchange) {
    x.future.Pending? ==> x.command.Some?
  }

  /**
    What the handler decides about the buffer once a chunk is appended. The
    exception message reads the third byte of the buffer, so on a shorter
    exception frame the handler itself fails before resolving anything and
    the exchange stays pending.
   */
  function Verdict(codec: Codec, cmd: Command, buffer: Bytes): (f: Future)
    ensures f != NoFuture && !(f.Done? && f.resolution.Cancelled?)
    ensures f.Done? && f.resolution.Value? ==>
              f.resolution.data == buffer && |buffer| == codec.responseSize(cmd) && codec.isValidResponse(cmd, buffer)
    ensures f == Done(Raised(ChecksumFailed)) ==>
              |buffer| == codec.responseSize(cmd) && !codec.isValidResponse(cmd, buffer)
    ensures f.Done? && f.resolution.Raised? && f.resolution.error.ModbusException? ==>
              |buffer| != codec.responseSize(cmd) && codec.isExceptionResponse(cmd, buffer)
    ensures f.Pending? <==>
              |buffer| != codec.responseSize(cmd) && !(codec.isExceptionResponse(cmd, buffer) && |buffer| > 2)
  {
    if |buffer| == codec.responseSize(cmd) then
      if codec.isValidResponse(cmd, buffer) then Done(Value(buffer)) else Done(Raised(ChecksumFailed))
    else if codec.isExceptionResponse(cmd, buffer) && |buffer| > 2 then
      Done(Raised(ModbusException(buffer[2])))
    else
      Pending
  }

  /**
    The converse of `Verdict`'s contract: a complete buffer resolves with
    itself when its checksum holds and with a checksum failure when it does
    not, an exception frame of at least three bytes resolves with the device's
    code, and the verdict is never a bad connection.
   */
  lemma VerdictDecides(codec: Codec, cmd: Command, buffer: Bytes)
    ensures var f := Verdict(codec, cmd, buffer);
            && (|buffer| == codec.responseSize(cmd) && codec.isValidResponse(cmd, buffer) ==> f == Done(Value(buffer)))
            && (|buffer| == codec.responseSize(cmd) && !codec.isValidResponse(cmd, buffer) ==> f == Done(Raised(ChecksumFailed)))
            && (|buffer| != codec.responseSize(cmd) && codec.isExceptionResponse(cmd, buffer) && |buffer| > 2 ==>
                  f == Done(Raised(ModbusException(buffer[2]))))
            && f != Done(Raised(BadConnection))
  {
  }

  /** The buffer is not yet a complete frame and not an exception frame: keep waiting. */
  predicate Incomplete(codec: Codec, cmd: Command, buffer: Bytes) {
    Verdict(codec, cmd, buffer).Pending?
  }

  /** One notification chunk arriving at the handler. */
  function Notify(codec: Codec, x: Exchange, chunk: Bytes): (x': Exchange)
    requires Wellformed(x)
    ensures Wellformed(x')
    ensures x'.command == x.command
    ensures !x.future.Pending? ==> x' == x
    ensures x.future.Pending? && IsAtEcho(chunk) ==>
              x' == x.(future := Done(Raised(BadConnection)))
    ensures x.future.Pending? && !IsAtEcho(chunk) ==> x'.buffer == x.buffer + chunk
    ensures x.future.Pending? && x'.future.Done? && x'.future.resolution.Value? ==>
              x'.future.resolution.data == x'.buffer &&
              |x'.buffer| == codec.responseSize(x.command.value) &&
              codec.isValidResponse(x.command.value, x'.buffer)
    ensures x.future.Pending? && x'.future == Done(Raised(ChecksumFailed)) ==>
              |x'.buffer| == codec.responseSize(x.command.value) &&
              !codec.isValidResponse(x.command.value, x'.buffer)
  {
    if !x.future.Pending? then x
    else if IsAtEcho(chunk) then x.(future := Done(Raised(BadConnection)))
    else
      var buffer := x.buffer + chunk;
      x.(buffer := buffer, future := Verdict(codec, x.command.value, buffer))
  }

  /** A run of chunks arriving one after the other. */
  function NotifyAll(codec: Codec, x: Exchange, chunks: seq<Bytes>): (x': Exchange)
    requires Wellformed(x)
    ensures Wellformed(x')
    ensures x'.command == x.command
    ensures !x.future.Pending? ==> x' == x
    ensures x'.future.Done? && x'.future.resolution.Value? ==>
              x'.future == x.future ||
              (x'.future.resolution.data == x'.buffer &&
               |x'.buffer| == codec.responseSize(x.command.value) &&
               codec.isValidResponse(x.command.value, x'.buffer))
    ensures x'.future == Done(Raised(ChecksumFailed)) ==>
              x'.future == x.future ||
              (|x'.buffer| == codec.responseSize(x.command.value) &&
               !codec.isValidResponse(x.command.value, x'.buffer))
    decreases |chunks|
  {
    if chunks == [] then x else NotifyAll(codec, Notify(codec, x, chunks[0]), chunks[1..])
  }

  /** Delivering two runs is delivering their concatenation. */
  lemma {:induction false} NotifyAllAppend(codec: Codec, x: Exchange, first: seq<Bytes>, second: seq<Bytes>)
    requires Wellformed(x)
    ensures NotifyAll(codec, x, first + second) == NotifyAll(codec, NotifyAll(codec, x, first), second)
    decreases |first|
  {
    if first == [] {
      assert first + second == second;
    } else {
      assert (first + second)[1..] == first[1..] + second;
      NotifyAllAppend(codec, Notify(codec, x, first[0]), first[1..], second);
    }
  }

  /** Once the exchange is resolved, later chunks change nothing: it is resolved at most once. */
  lemma ResolutionIsFinal(codec: Codec, x: Exchange, first: seq<Bytes>, later: seq<Bytes>)
    requires Wellformed(x)
    requires NotifyAll(codec, x, first).future.Done?
    ensures NotifyAll(codec, x, first + later) == NotifyAll(codec, x, first)
  {
    NotifyAllAppend(codec, x, first, later);
  }

  /**
    A freshly built reader has no future, so it ignores every notification
    that arrives before its first send.
   */
  lemma FreshReaderIgnoresNotifications(codec: Codec, chunks: seq<Bytes>)
    ensures NotifyAll(codec, Initial, chunks) == Initial
  {
  }

  /** When the buffer reaches the response size, the exception predicate is never consulted. */
  lemma ExceptionCheckOnlyOnLengthMismatch(codec: Codec, x: Exchange, chunk: Bytes, other: (Command, Bytes) -> bool)
    requires Wellformed(x) && x.future.Pending? && !IsAtEcho(chunk)
    requires |x.buffer + chunk| == codec.responseSize(x.command.value)
    ensures Notify(codec.(isExceptionResponse := other), x, chunk) == Notify(codec, x, chunk)
  {
  }

  /** When the buffer length differs from the response size, the checksum predicate is never consulted. */
  lemma ChecksumOnlyOnLengthMatch(codec: Codec, x: Exchange, chunk: Bytes, other: (Command, Bytes) -> bool)
    requires Wellformed(x) && x.future.Pending? && !IsAtEcho(chunk)
    requires |x.buffer + chunk| != codec.responseSize(x.command.value)
    ensures Notify(codec.(isValidResponse := other), x, chunk) == Notify(codec, x, chunk)
  {
  }

  /**
    A run of chunks, none an AT echo and no proper prefix of which completes
    or fails the frame, leaves the buffer holding all their bytes and the
    future with the verdict on that buffer.
   */
  lemma {:induction false} ChunksAssemble(codec: Codec, x: Exchange, chunks: seq<Bytes>)
    requires Wellformed(x) && x.future.Pending?
    requires |chunks| > 0
    requires forall i :: 0 <= i < |chunks| ==> !IsAtEcho(chunks[i])
    requires forall i :: 0 < i < |chunks| ==> Incomplete(codec, x.command.value, x.buffer + Concat(chunks[..i]))
    ensures NotifyAll(codec, x, chunks) ==
              var buffer := x.buffer + Concat(chunks);
              x.(buffer := buffer, future := Verdict(codec, x.command.value, buffer))
    decreases |chunks|
  {
    var cmd := x.command.value;
    var x1 := Notify(codec, x, chunks[0]);
    if |chunks| == 1 {
      assert chunks[1..] == [];
      assert Concat(chunks) == chunks[0] + Concat([]);
      assert Concat(chunks) == chunks[0];
      assert NotifyAll(codec, x, chunks) == NotifyAll(codec, x1, []) == x1;
    } else {
      assert chunks[..1] == [chunks[0]];
      assert chunks[..1][1..] == [];
      assert Concat(chunks[..1]) == chunks[0] + Concat([]);
      assert x.buffer + Concat(chunks[..1]) == x1.buffer;
      assert x1.future.Pending?;
      var rest := chunks[1..];
      forall i | 0 < i < |rest|
        ensures Incomplete(codec, cmd, x1.buffer + Concat(rest[..i]))
      {
        assert chunks[..i + 1][1..] == rest[..i];
        assert Concat(chunks[..i + 1]) == chunks[0] + Concat(rest[..i]);
        assert x.buffer + Concat(chunks[..i + 1]) == x1.buffer + Concat(rest[..i]);
      }
      ChunksAssemble(codec, x1, rest);
      assert x1.buffer + Concat(rest) == x.buffer + Concat(chunks);
    }
  }

  /**
    A response split over several notifications resolves the exchange exactly
    as the same bytes arriving in one notification would, provided no chunk
    and not the whole is an AT echo and no proper prefix already decides it.
   */
  lemma FragmentedEqualsWhole(codec: Codec, x: Exchange, chunks: seq<Bytes>)
    requires Wellformed(x) && x.future.Pending?
    requires |chunks| > 0
    requires forall i :: 0 <= i < |chunks| ==> !IsAtEcho(chunks[i])
    requires !IsAtEcho(Concat(chunks))
    requires forall i :: 0 < i < |chunks| ==> Incomplete(codec, x.command.value, x.buffer + Concat(chunks[..i]))
    ensures NotifyAll(codec, x, chunks) == Notify(codec, x, Concat(chunks))
  {
    ChunksAssemble(codec, x, chunks);
  }
}

=== FILE: errors.dfy ===
/** The exceptions that move through the reader. */
module Errors {

  /**
    Exceptions raised by the BLE transport: a `BleakError`, a `TimeoutError`,
    any other exception, or the whole-poll deadline of `async_timeout` firing
    at the current await (a cancellation, which no `except Exception` catches).
   */
  datatype Fault = BleakFault | TimeoutFault | OtherFault | PollDeadline

  /** An exception escaping a command exchange: a checksum `ParseError` or a transport fault. */
  datatype Exc = ParseErr | FaultExc(fault: Fault)

  /** Faults that `_async_send_command` catches and turns into empty bytes. */
  predicate SwallowedBySend(f: Fault) {
    f.BleakFault? || f.TimeoutFault?
  }

  /** Exceptions that `read_data` turns into a `None` result (`TimeoutError` and `BleakError`). */
  predicate SwallowedByPoll(e: Exc) {
    e.FaultExc? && (e.fault.BleakFault? || e.fault.TimeoutFault? || e.fault.PollDeadline?)
  }
}

=== FILE: fields.dfy ===
/** Parsed field maps and the ways `read_data` combines them. */
module Fields {

  import opened Wrappers

  /** A decoded field value: the parser yields booleans, integers, enum members and decimals. */
  datatype Value = BoolValue(b: bool) | IntValue(i: int) | EnumValue(name: string) | DecimalValue(d: real)

  type FieldMap = map<string, Value>

  /** Map union is associative, so successive `dict.update` calls may be regrouped. */
  lemma UnionAssociative(a: FieldMap, b: FieldMap, c: FieldMap)
    ensures (a + b) + c == a + (b + c)
  {
  }

  /** Successive `dict.update` calls, starting from an empty dictionary. */
  function Merged(ms: seq<FieldMap>): (m: FieldMap)
  {
    if ms == [] then map[] else ms[0] + Merged(ms[1..])
  }

  /** A key survives the merge exactly when some map in the sequence holds it. */
  lemma {:induction false} MergedKeys(ms: seq<FieldMap>, k: string)
    ensures k in Merged(ms) <==> exists i :: 0 <= i < |ms| && k in ms[i]
  {
    if ms != [] {
      MergedKeys(ms[1..], k);
      if k in Merged(ms[1..]) {
        var i :| 0 <= i < |ms[1..]| && k in ms[1..][i];
        assert k in ms[i + 1];
      }
      if k !in ms[0] && exists i :: 0 <= i < |ms| && k in ms[i] {
        var i :| 0 <= i < |ms| && k in ms[i];
        assert k in ms[1..][i - 1];
      }
    }
  }

  /** A merge is the first map updated with the merge of the rest. */
  lemma MergedCons(ms: seq<FieldMap>)
    requires ms != []
    ensures Merged(ms) == ms[0] + Merged(ms[1..])
  {
  }

  /** In a merge the value of a key is the one from the last map that holds it. */
  lemma {:induction false} MergedLastWins(ms: seq<FieldMap>, i: nat, k: string)
    requires i < |ms| && k in ms[i]
    requires forall j :: i < j < |ms| ==> k !in ms[j]
    ensures k in Merged(ms) && Merged(ms)[k] == ms[i][k]
  {
    if i > 0 {
      MergedLastWins(ms[1..], i - 1, k);
    } else {
      MergedKeys(ms[1..], k);
      assert k !in Merged(ms[1..]);
    }
  }

  /** `str(n)` for a non-negative integer: its decimal digits. */
  function Decimal(n: nat): (s: string)
    ensures |s| > 0
    ensures forall i :: 0 <= i < |s| ==> '0' <= s[i] <= '9'
  {
    if n < 10 then [Digit(n)] else Decimal(n / 10) + [Digit(n % 10)]
  }

  function Digit(d: nat): (c: char)
    requires d < 10
    ensures '0' <= c <= '9'
  {
    "0123456789"[d]
  }

  /** The number a string of decimal digits denotes. */
  function DigitsValue(s: string): (n: nat)
    requires forall i :: 0 <= i < |s| ==> '0' <= s[i] <= '9'
  {
    if s == [] then 0 else 10 * DigitsValue(s[..|s| - 1]) + (s[|s| - 1] as int - '0' as int)
  }

  /** Reading back the digits of `str(n)` gives `n`. */
  lemma {:induction false} DecimalRoundTrip(n: nat)
    ensures DigitsValue(Decimal(n)) == n
  {
    var s := Decimal(n);
    if n >= 10 {
      DecimalRoundTrip(n / 10);
      assert s[..|s| - 1] == Decimal(n / 10);
    }
  }

  /** Equal suffixes cancel. */
  lemma SuffixCancels(suffix: string)
    ensures forall k1: string, k2: string {:trigger k1 + suffix, k2 + suffix} ::
              k1 + suffix == k2 + suffix ==> k1 == k2
  {
    forall k1: string, k2: string | k1 + suffix == k2 + suffix
      ensures k1 == k2
    {
      assert |k1| == |k2|;
      assert forall i :: 0 <= i < |k1| ==> k1[i] == (k1 + suffix)[i] == (k2 + suffix)[i] == k2[i];
    }
  }

  predicate EndsWith(k: string, suffix: string) {
    |suffix| <= |k| && k[|k| - |suffix|..] == suffix
  }

  /** Every key of the map, with the suffix appended, keeping its value. */
  function Suffixed(m: FieldMap, suffix: string): (r: FieldMap)
    ensures forall k' :: k' in r ==>
              EndsWith(k', suffix) && k'[..|k'| - |suffix|] in m && r[k'] == m[k'[..|k'| - |suffix|]]
  {
    SuffixCancels(suffix);
    map k | k in m :: k + suffix := m[k]
  }

  /** Each field of the map appears under its suffixed key with its value. */
  lemma SuffixedKeepsFields(m: FieldMap, suffix: string, k: string)
    requires k in m
    ensures k + suffix in Suffixed(m, suffix) && Suffixed(m, suffix)[k + suffix] == m[k]
  {
    SuffixCancels(suffix);
  }

  /** The value as Python's `isinstance(v, int)` sees it: a `bool` is an `int`, `True == 1`, `False == 0`. */
  function AsPythonInt(v: Value): (n: Option<int>)
  {
    match v
    case IntValue(i) => Some(i)
    case BoolValue(b) => Some(if b then 1 else 0)
    case _ => None
  }

  /** The parsed `pack_num` is an int equal to the selected pack; a missing `pack_num` never matches. */
  predicate PackNumberIs(m: FieldMap, pack: int) {
    "pack_num" in m && AsPythonInt(m["pack_num"]) == Some(pack)
  }

  /** Packs are numbered from 1: a boolean `pack_num` of `True` is accepted for pack 1 only, `False` for none. */
  lemma BooleanPackNumber(m: FieldMap, pack: int)
    requires "pack_num" in m && m["pack_num"].BoolValue? && pack >= 1
    ensures PackNumberIs(m, pack) <==> m["pack_num"].b && pack == 1
  {
  }
}

=== FILE: poll.dfy ===
/**
  One poll, `DeviceReader.read_data`, as a fold over the command lists with
  the transport replaced by a script. The reader's lock makes polls run one
  at a time, so a poll is a function of the reader state it starts from.
 */
module Poll {

  import opened Wrappers
  import opened Bytes
  import opened Errors
  import opened Protocol
  import opened Correlator
  import opened Transport
  import opened Requests
  import opened Connection
  import opened Fields

  /** The device description the reader polls, with its parser and pack-select builder. */
  datatype Device = Device(
    pollingCommands: seq<Command>,
    packPollingCommands: seq<Command>,
    packNumMax: int,
    /** `bluetti_device.parse(address, body)`, or `None` for a `ParseError` */
    parse: (nat, Bytes) -> Option<FieldMap>,
    /** `bluetti_device.build_setter_command("pack_num", pack)` */
    packSelect: int -> Command)

  datatype Config = Config(persistent: bool, maxRetries: int)

  /** The reader's state between polls: `client.is_connected`, `has_notifier`, and the exchange fields. */
  datatype Reader = Reader(connected: bool, hasNotifier: bool, exchange: Exchange)

  /** The transport calls a poll makes, in order. */
  datatype Action = Connect | StartNotify | Request(command: Command) | SelectPack(pack: int) | StopNotify | Disconnect

  /** A poll in progress: reader state, `parsed_data`, exchanges sent so far, and the calls made. */
  datatype Cycle = Cycle(reader: Reader, data: FieldMap, sent: nat, trace: seq<Action>)

  datatype Phase = Running(cycle: Cycle) | Aborted(cycle: Cycle, exc: Exc)

  /** What `read_data` returns, or the exception it lets out. */
  datatype PollResult = Returned(data: Option<FieldMap>) | Raises(exc: Exc)

  datatype PollRun = PollRun(result: PollResult, reader: Reader, trace: seq<Action>)

  /** An exchange's outcome that ends the whole poll. */
  predicate Fatal(o: SendOutcome) {
    o.Escapes? && o.exc != ParseErr
  }

  /** `command.parse_response(reply)` then `bluetti_device.parse(...)`; `None` for a `ParseError`. */
  function Decode(codec: Codec, dev: Device, cmd: Command, reply: Bytes): (fields: Option<FieldMap>)
  {
    match codec.parseResponse(cmd, reply)
    case None => None
    case Some(body) => dev.parse(cmd.startingAddress, body)
  }

  datatype Step = Step(cycle: Cycle, outcome: SendOutcome)

  /**
    One exchange of the poll, the next one in the script. The contract is a
    frame the phases' proofs lean on: it keeps the solver from re-deriving
    these facts from `Send` at every exchange.
   */
  function Perform(codec: Codec, script: Script, c: Cycle, cmd: Command, action: Action): (st: Step)
    ensures st.outcome == Send(codec, cmd, script.exchange(c.sent)).outcome
    ensures st.cycle.sent == c.sent + 1 && st.cycle.trace == c.trace + [action]
    ensures st.cycle.data == c.data
    ensures st.cycle.reader.connected == c.reader.connected && st.cycle.reader.hasNotifier == c.reader.hasNotifier
  {
    var s := Send(codec, cmd, script.exchange(c.sent));
    Step(Cycle(c.reader.(exchange := s.exchange), c.data, c.sent + 1, c.trace + [action]), s.outcome)
  }

  /** Only `Request` and `SelectPack` calls were made after the first `n` entries. */
  predicate TrafficAfter(trace: seq<Action>, n: nat) {
    forall i :: n <= i < |trace| ==> trace[i].Request? || trace[i].SelectPack?
  }

  /** The reader flags and the calls already made survive a phase, which only adds exchanges. */
  predicate Extends(c: Cycle, c': Cycle) {
    && c'.reader.connected == c.reader.connected
    && c'.reader.hasNotifier == c.reader.hasNotifier
    && c'.sent >= c.sent
    && |c'.trace| >= |c.trace| && c'.trace[..|c.trace|] == c.trace
    && TrafficAfter(c'.trace, |c.trace|)
  }

  /** The fields a reply contributes: the parsed map, or nothing when parsing raises a `ParseError`. */
  function ReplyFields(codec: Codec, dev: Device, cmd: Command, o: SendOutcome): (m: FieldMap)
  {
    if o.Reply? then Decode(codec, dev, cmd, o.data).GetOr(map[]) else map[]
  }

  /**
    The fields a pack reply contributes: `{key + str(pack): value}` for each
    parsed field when the parsed `pack_num` is the selected pack, and nothing
    otherwise (the `continue`).
   */
  function PackFields(codec: Codec, dev: Device, cmd: Command, o: SendOutcome, pack: nat): (m: FieldMap)
  {
    var m := ReplyFields(codec, dev, cmd, o);
    if PackNumberIs(m, pack) then Suffixed(m, Decimal(pack)) else map[]
  }

  /** `parsed_data.update(parsed)`. */
  function MergeReply(codec: Codec, dev: Device, c: Cycle, cmd: Command, o: SendOutcome): (c': Cycle)
  {
    c.(data := c.data + ReplyFields(codec, dev, cmd, o))
  }

  /** `parsed_data.update({key + str(pack): value})` for each field of a matching pack reply. */
  function MergePackReply(codec: Codec, dev: Device, c: Cycle, cmd: Command, o: SendOutcome, pack: nat): (c': Cycle)
  {
    c.(data := c.data + PackFields(codec, dev, cmd, o, pack))
  }

  /** The main polling commands, in order; a `ParseError` skips only that command. */
  function MainPhase(codec: Codec, script: Script, dev: Device, c: Cycle, cmds: seq<Command>): (p: Phase)
    ensures Extends(c, p.cycle)
    ensures p.Running? ==> p.cycle.sent == c.sent + |cmds|
    ensures p.Aborted? ==> p.exc != ParseErr
    decreases |cmds|
  {
    if cmds == [] then Running(c)
    else
      var st := Perform(codec, script, c, cmds[0], Request(cmds[0]));
      if Fatal(st.outcome) then Aborted(st.cycle, st.outcome.exc)
      else MainPhase(codec, script, dev, MergeReply(codec, dev, st.cycle, cmds[0], st.outcome), cmds[1..])
  }

  /** The pack commands for one selected pack; fields are kept only when the echoed `pack_num` matches. */
  function PackCommands(codec: Codec, script: Script, dev: Device, c: Cycle, pack: nat, cmds: seq<Command>): (p: Phase)
    ensures Extends(c, p.cycle)
    ensures p.Running? ==> p.cycle.sent == c.sent + |cmds|
    ensures p.Aborted? ==> p.exc != ParseErr
    decreases |cmds|
  {
    if cmds == [] then Running(c)
    else
      var st := Perform(codec, script, c, cmds[0], Request(cmds[0]));
      if Fatal(st.outcome) then Aborted(st.cycle, st.outcome.exc)
      else PackCommands(codec, script, dev, MergePackReply(codec, dev, st.cycle, cmds[0], st.outcome, pack), pack, cmds[1..])
  }

  /** The exchanges of packs `pack` to `pack_num_max`, `width` per pack: a select and each pack command. */
  function PackExchanges(dev: Device, pack: nat, width: nat): (n: nat)
    decreases dev.packNumMax - pack
  {
    if pack > dev.packNumMax then 0 else width + PackExchanges(dev, pack + 1, width)
  }

  /** That is `width` exchanges for each pack `range(pack, pack_num_max + 1)` visits. */
  lemma {:induction false} PackExchangesCount(dev: Device, pack: nat, width: nat)
    ensures PackExchanges(dev, pack, width) == (if pack > dev.packNumMax then 0 else dev.packNumMax - pack + 1) * width
    decreases dev.packNumMax - pack
  {
    if pack <= dev.packNumMax {
      PackExchangesCount(dev, pack + 1, width);
      var k := if pack + 1 > dev.packNumMax then 0 else dev.packNumMax - pack;
      assert dev.packNumMax - pack + 1 == k + 1;
      assert (k + 1) * width == width + k * width;
    }
  }

  /**
    Packs `pack` to `pack_num_max`: select the pack, then run its commands.
    The select exchange has no `ParseError` handler, so any exception it
    lets out ends the poll.
   */
  function PackPhase(codec: Codec, script: Script, dev: Device, c: Cycle, pack: nat, cmds: seq<Command>): (p: Phase)
    ensures Extends(c, p.cycle)
    decreases dev.packNumMax - pack
  {
    if pack > dev.packNumMax then Running(c)
    else
      var st := Perform(codec, script, c, dev.packSelect(pack), SelectPack(pack));
      if st.outcome.Escapes? then Aborted(st.cycle, st.outcome.exc)
      else
        match PackCommands(codec, script, dev, st.cycle, pack, cmds)
        case Aborted(c', e) => Aborted(c', e)
        case Running(c') => PackPhase(codec, script, dev, c', pack + 1, cmds)
  }

  /** Only `Connect` and `StartNotify` calls. */
  predicate OpeningCalls(trace: seq<Action>) {
    forall i :: 0 <= i < |trace| ==> trace[i] == Connect || trace[i] == StartNotify
  }

  /**
    Reconnect if needed, then attach the notifier unless it is attached
    already, setting `has_notifier` only once `start_notify` succeeded.
   */
  function Open(cfg: Config, script: Script, r: Reader): (p: Phase)
    ensures var cr := ConnectLoop(cfg.maxRetries, r.connected, script.connect);
            var attaches := cr.raised.None? && !r.hasNotifier;
            && p.cycle.data == map[] && p.cycle.sent == 0
            && OpeningCalls(p.cycle.trace)
            && multiset(p.cycle.trace)[Connect] == cr.calls
            && multiset(p.cycle.trace)[StartNotify] == (if attaches then 1 else 0)
            && p.cycle.reader.connected == cr.connected
            && p.cycle.reader.hasNotifier == (r.hasNotifier || (attaches && script.startNotify.None?))
            && (p.Running? <==> cr.raised.None? && (r.hasNotifier || script.startNotify.None?))
  {
    var cr := ConnectLoop(cfg.maxRetries, r.connected, script.connect);
    var connects := if cr.calls == 1 then [Connect] else [];
    var c0 := Cycle(r.(connected := cr.connected), map[], 0, connects);
    if cr.raised.Some? then Aborted(c0, FaultExc(cr.raised.value))
    else if r.hasNotifier then Running(c0)
    else if script.startNotify.Some? then
      Aborted(c0.(trace := c0.trace + [StartNotify]), FaultExc(script.startNotify.value))
    else
      Running(c0.(reader := c0.reader.(hasNotifier := true), trace := c0.trace + [StartNotify]))
  }

  /** The body of the `try`: open the session, then the main and pack phases. */
  function Session(cfg: Config, codec: Codec, script: Script, dev: Device, r: Reader,
                   polling: seq<Command>, packs: seq<Command>): (p: Phase)
  {
    match Open(cfg, script, r)
    case Aborted(c, e) => Aborted(c, e)
    case Running(c1) =>
      match MainPhase(codec, script, dev, c1, polling)
      case Aborted(c, e) => Aborted(c, e)
      case Running(c) => if |packs| > 0 then PackPhase(codec, script, dev, c, 1, packs) else Running(c)
  }

  /** The `finally` block: outside persistent mode, stop notifying if attached and disconnect. */
  function Teardown(cfg: Config, c: Cycle): (c': Cycle)
  {
    if cfg.persistent then c
    else
      c.(reader := c.reader.(connected := false, hasNotifier := false),
         trace := c.trace + (if c.reader.hasNotifier then [StopNotify] else []) + [Disconnect])
  }

  /** `TimeoutError` and `BleakError` become `None`; any other exception leaves `read_data`. */
  function Outcome(p: Phase): (result: PollResult)
  {
    match p
    case Running(c) => Returned(Some(c.data))
    case Aborted(_, e) => if SwallowedByPoll(e) then Returned(None) else Raises(e)
  }

  /** The main commands of a poll: the filter when one is given, otherwise the device's polling commands. */
  function PolledCommands(dev: Device, filter: Option<seq<Command>>): (cmds: seq<Command>)
  {
    if filter.Some? then filter.value else dev.pollingCommands
  }

  /** The pack commands of a poll: none when a filter is given. */
  function PolledPackCommands(dev: Device, filter: Option<seq<Command>>): (cmds: seq<Command>)
  {
    if filter.Some? then [] else dev.packPollingCommands
  }

  /** The session `read_data` runs for a device and an optional filter, inside its `try`. */
  function Body(cfg: Config, codec: Codec, script: Script, dev: Device, r: Reader, filter: Option<seq<Command>>): (p: Phase)
  {
    Session(cfg, codec, script, dev, r, PolledCommands(dev, filter), PolledPackCommands(dev, filter))
  }

  /** `read_data(filter_registers)`: a filter replaces the main commands and switches pack polling off. */
  function ReadData(cfg: Config, codec: Codec, script: Script, device: Option<Device>, r: Reader,
                    filter: Option<seq<Command>>): (run: PollRun)
  {
    match device
    case None => PollRun(Returned(None), r, [])
    case Some(dev) =>
      var body := Body(cfg, codec, script, dev, r, filter);
      var c := Teardown(cfg, body.cycle);
      PollRun(Outcome(body), c.reader, c.trace)
  }
}

=== FILE: poll_lifecycle.dfy ===
/** The connection and notifier lifecycle of a poll, and what `read_data` hands back. */
module PollLifecycle {

  import opened Wrappers
  import opened Errors
  import opened Protocol
  import opened Transport
  import opened Requests
  import opened Connection
  import opened Fields
  import opened Poll
  import opened PollProperties

  /** A cycle extends itself. */
  lemma ExtendsReflexive(c: Cycle)
    ensures Extends(c, c)
  {
    assert c.trace[..|c.trace|] == c.trace;
  }

  /** Phases run one after another extend the cycle they started from. */
  lemma ExtendsTransitive(c1: Cycle, c2: Cycle, c3: Cycle)
    requires Extends(c1, c2) && Extends(c2, c3)
    ensures Extends(c1, c3)
  {
    assert c3.trace[..|c1.trace|] == c3.trace[..|c2.trace|][..|c1.trace|];
  }

  /** Exchanges add no connection or notifier calls. */
  lemma TrafficCounts(trace: seq<Action>, n: nat, a: Action)
    requires n <= |trace| && TrafficAfter(trace, n) && !a.Request? && !a.SelectPack?
    ensures multiset(trace)[a] == multiset(trace[..n])[a]
  {
    assert trace == trace[..n] + trace[n..];
    assert a !in trace[n..];
  }

  /** The phases after opening keep the reader flags and add only exchanges. */
  lemma SessionExtendsOpen(cfg: Config, codec: Codec, script: Script, dev: Device, r: Reader,
                           polling: seq<Command>, packs: seq<Command>)
    ensures Extends(Open(cfg, script, r).cycle, Session(cfg, codec, script, dev, r, polling, packs).cycle)
  {
    var o := Open(cfg, script, r);
    if o.Aborted? {
      ExtendsReflexive(o.cycle);
    } else {
      var main := MainPhase(codec, script, dev, o.cycle, polling);
      if main.Running? && |packs| > 0 {
        ExtendsTransitive(o.cycle, main.cycle, PackPhase(codec, script, dev, main.cycle, 1, packs).cycle);
      }
    }
  }

  /** The connection and notifier calls of the `try` body, and the flags it leaves. */
  lemma SessionCalls(cfg: Config, codec: Codec, script: Script, dev: Device, r: Reader,
                     polling: seq<Command>, packs: seq<Command>)
    ensures var cr := ConnectLoop(cfg.maxRetries, r.connected, script.connect);
            var attaches := cr.raised.None? && !r.hasNotifier;
            var p := Session(cfg, codec, script, dev, r, polling, packs);
            && multiset(p.cycle.trace)[Connect] == cr.calls
            && multiset(p.cycle.trace)[StartNotify] == (if attaches then 1 else 0)
            && StopNotify !in p.cycle.trace && Disconnect !in p.cycle.trace
            && p.cycle.reader.connected == cr.connected
            && p.cycle.reader.hasNotifier == (r.hasNotifier || (attaches && script.startNotify.None?))
  {
    var o := Open(cfg, script, r);
    var p := Session(cfg, codec, script, dev, r, polling, packs);
    SessionExtendsOpen(cfg, codec, script, dev, r, polling, packs);
    var n := |o.cycle.trace|;
    assert p.cycle.trace[..n] == o.cycle.trace;
    TrafficCounts(p.cycle.trace, n, Connect);
    TrafficCounts(p.cycle.trace, n, StartNotify);
    TrafficCounts(p.cycle.trace, n, StopNotify);
    TrafficCounts(p.cycle.trace, n, Disconnect);
    assert StopNotify !in o.cycle.trace && Disconnect !in o.cycle.trace;
  }

  /** A poll of a device is its session body followed by the teardown. */
  lemma ReadDataUnfold(cfg: Config, codec: Codec, script: Script, dev: Device, r: Reader, filter: Option<seq<Command>>)
    ensures var body := Body(cfg, codec, script, dev, r, filter);
            var c := Teardown(cfg, body.cycle);
            ReadData(cfg, codec, script, Some(dev), r, filter) == PollRun(Outcome(body), c.reader, c.trace)
  {
  }

  /** The connection and notifier calls of the session body `read_data` runs. */
  lemma BodyCalls(cfg: Config, codec: Codec, script: Script, dev: Device, r: Reader, filter: Option<seq<Command>>)
    ensures var cr := ConnectLoop(cfg.maxRetries, r.connected, script.connect);
            var attaches := cr.raised.None? && !r.hasNotifier;
            var p := Body(cfg, codec, script, dev, r, filter);
            && multiset(p.cycle.trace)[Connect] == cr.calls
            && multiset(p.cycle.trace)[StartNotify] == (if attaches then 1 else 0)
            && StopNotify !in p.cycle.trace && Disconnect !in p.cycle.trace
            && p.cycle.reader.connected == cr.connected
            && p.cycle.reader.hasNotifier == (r.hasNotifier || (attaches && script.startNotify.None?))
  {
    var polling := PolledCommands(dev, filter);
    var packs := PolledPackCommands(dev, filter);
    SessionCalls(cfg, codec, script, dev, r, polling, packs);
  }

  /** Teardown adds at most a stop and a disconnect, and only outside persistent mode. */
  lemma TeardownCalls(cfg: Config, c: Cycle)
    ensures var c' := Teardown(cfg, c);
            && |c'.trace| >= |c.trace| && c'.trace[..|c.trace|] == c.trace
            && Connect !in c'.trace[|c.trace|..] && StartNotify !in c'.trace[|c.trace|..]
            && (cfg.persistent ==> c' == c)
            && (!cfg.persistent ==>
                  && c'.trace[|c.trace|..] == (if c.reader.hasNotifier then [StopNotify] else []) + [Disconnect]
                  && !c'.reader.connected && !c'.reader.hasNotifier)
  {
    var c' := Teardown(cfg, c);
    assert c'.trace[..|c.trace|] == c.trace;
  }

  /**
    Connect is called at most once per poll, because a failure on the first
    attempt is re-raised; and not at all when already connected or when
    `max_retries` is 0.
   */
  lemma ConnectCalledAtMostOnce(cfg: Config, codec: Codec, script: Script, device: Option<Device>, r: Reader,
                                filter: Option<seq<Command>>)
    ensures var run := ReadData(cfg, codec, script, device, r, filter);
            && multiset(run.trace)[Connect] <= 1
            && (r.connected || cfg.maxRetries < 1 ==> Connect !in run.trace)
  {
    if device.Some? {
      var dev := device.value;
      var body := Body(cfg, codec, script, dev, r, filter);
      ReadDataUnfold(cfg, codec, script, dev, r, filter);
      BodyCalls(cfg, codec, script, dev, r, filter);
      TeardownCalls(cfg, body.cycle);
      var t := Teardown(cfg, body.cycle).trace;
      assert t == body.cycle.trace + t[|body.cycle.trace|..];
    }
  }

  /** Notify is started only when `has_notifier` is false, and at most once per poll. */
  lemma NotifierStartedOnlyWhenDetached(cfg: Config, codec: Codec, script: Script, device: Option<Device>, r: Reader,
                                        filter: Option<seq<Command>>)
    ensures var run := ReadData(cfg, codec, script, device, r, filter);
            && multiset(run.trace)[StartNotify] <= 1
            && (StartNotify in run.trace ==> !r.hasNotifier)
  {
    if device.Some? {
      var dev := device.value;
      var body := Body(cfg, codec, script, dev, r, filter);
      ReadDataUnfold(cfg, codec, script, dev, r, filter);
      BodyCalls(cfg, codec, script, dev, r, filter);
      TeardownCalls(cfg, body.cycle);
      var t := Teardown(cfg, body.cycle).trace;
      assert t == body.cycle.trace + t[|body.cycle.trace|..];
    }
  }

  /** Outside persistent mode teardown stops an attached notifier, then disconnects, once each. */
  lemma TeardownCloses(cfg: Config, c: Cycle)
    requires !cfg.persistent && StopNotify !in c.trace && Disconnect !in c.trace
    ensures var c' := Teardown(cfg, c);
            && !c'.reader.connected && !c'.reader.hasNotifier
            && |c'.trace| > 0 && c'.trace[|c'.trace| - 1] == Disconnect
            && multiset(c'.trace)[Disconnect] == 1
            && multiset(c'.trace)[StopNotify] == (if c.reader.hasNotifier then 1 else 0)
            && (StartNotify in c'.trace <==> StartNotify in c.trace)
  {
  }

  /**
    Outside persistent mode every exit stops notifications if they were
    attached, clears `has_notifier` and ends with exactly one disconnect.
   */
  lemma NonPersistentTeardown(cfg: Config, codec: Codec, script: Script, device: Option<Device>, r: Reader,
                              filter: Option<seq<Command>>)
    requires !cfg.persistent && device.Some?
    ensures var run := ReadData(cfg, codec, script, device, r, filter);
            && !run.reader.connected && !run.reader.hasNotifier
            && |run.trace| > 0 && run.trace[|run.trace| - 1] == Disconnect
            && multiset(run.trace)[Disconnect] == 1
            && multiset(run.trace)[StopNotify] <= 1
            && (StopNotify in run.trace <==> r.hasNotifier || (StartNotify in run.trace && script.startNotify.None?))
  {
    var dev := device.value;
    var body := Body(cfg, codec, script, dev, r, filter);
    ReadDataUnfold(cfg, codec, script, dev, r, filter);
    BodyCalls(cfg, codec, script, dev, r, filter);
    TeardownCloses(cfg, body.cycle);
    assert StartNotify in body.cycle.trace <==> multiset(body.cycle.trace)[StartNotify] > 0;
  }

  /** In persistent mode teardown does nothing: no stop, no disconnect, and the notifier stays attached. */
  lemma PersistentTeardownKeepsSession(cfg: Config, codec: Codec, script: Script, device: Option<Device>, r: Reader,
                                       filter: Option<seq<Command>>)
    requires cfg.persistent
    ensures var run := ReadData(cfg, codec, script, device, r, filter);
            && StopNotify !in run.trace && Disconnect !in run.trace
            && run.reader.hasNotifier == (r.hasNotifier || (StartNotify in run.trace && script.startNotify.None?))
  {
    if device.Some? {
      var dev := device.value;
      var body := Body(cfg, codec, script, dev, r, filter);
      ReadDataUnfold(cfg, codec, script, dev, r, filter);
      BodyCalls(cfg, codec, script, dev, r, filter);
      TeardownCalls(cfg, body.cycle);
      var t := Teardown(cfg, body.cycle).trace;
      assert t == body.cycle.trace + t[|body.cycle.trace|..];
    }
  }
}

=== FILE: poll_properties.dfy ===
/** What a poll guarantees: merging, pack suffixes, the connection and notifier lifecycle, and teardown. */
module PollProperties {

  import opened Wrappers
  import opened Bytes
  import opened Errors
  import opened Protocol
  import opened Transport
  import opened Requests
  import opened Connection
  import opened Fields
  import opened Poll

  /** The fields one main command contributes on its own: nothing when it is skipped. */
  function Contribution(codec: Codec, dev: Device, cmd: Command, es: ExchangeScript): (m: FieldMap)
  {
    ReplyFields(codec, dev, cmd, Send(codec, cmd, es).outcome)
  }

  /** Each main command's contribution, the i-th command meeting the i-th exchange from `start`. */
  function MainContributions(codec: Codec, script: Script, dev: Device, start: nat, cmds: seq<Command>): (ms: seq<FieldMap>)
    decreases |cmds|
  {
    if cmds == [] then []
    else [Contribution(codec, dev, cmds[0], script.exchange(start))] + MainContributions(codec, script, dev, start + 1, cmds[1..])
  }

  /** The fields one pack command contributes for the selected pack, on its own. */
  function PackContribution(codec: Codec, dev: Device, cmd: Command, es: ExchangeScript, pack: nat): (m: FieldMap)
  {
    PackFields(codec, dev, cmd, Send(codec, cmd, es).outcome, pack)
  }

  /**
    Only a reply whose parsed `pack_num` is the selected pack contributes,
    and every key it contributes ends in `str(pack)` and carries the parsed
    value of the key it extends.
   */
  lemma PackFieldsShape(codec: Codec, dev: Device, cmd: Command, o: SendOutcome, pack: nat)
    ensures var r := PackFields(codec, dev, cmd, o, pack);
            && (r != map[] ==>
                  o.Reply? && Decode(codec, dev, cmd, o.data).Some? && PackNumberIs(Decode(codec, dev, cmd, o.data).value, pack))
            && forall k :: k in r ==>
                 && EndsWith(k, Decimal(pack))
                 && var m := Decode(codec, dev, cmd, o.data).value;
                    k[..|k| - |Decimal(pack)|] in m && r[k] == m[k[..|k| - |Decimal(pack)|]]
  {
  }

  /** Each pack command's contribution, the i-th command meeting the i-th exchange from `start`. */
  function PackContributions(codec: Codec, script: Script, dev: Device, start: nat, pack: nat, cmds: seq<Command>): (ms: seq<FieldMap>)
    decreases |cmds|
  {
    if cmds == [] then []
    else [PackContribution(codec, dev, cmds[0], script.exchange(start), pack)] + PackContributions(codec, script, dev, start + 1, pack, cmds[1..])
  }

  /** Splitting off the first command's contribution. */
  lemma MainContributionsCons(codec: Codec, script: Script, dev: Device, start: nat, cmds: seq<Command>)
    requires cmds != []
    ensures var ms := MainContributions(codec, script, dev, start, cmds);
            && ms[0] == Contribution(codec, dev, cmds[0], script.exchange(start))
            && ms[1..] == MainContributions(codec, script, dev, start + 1, cmds[1..])
  {
  }

  /** Splitting off the first pack command's contribution. */
  lemma PackContributionsCons(codec: Codec, script: Script, dev: Device, start: nat, pack: nat, cmds: seq<Command>)
    requires cmds != []
    ensures var ms := PackContributions(codec, script, dev, start, pack, cmds);
            && ms[0] == PackContribution(codec, dev, cmds[0], script.exchange(start), pack)
            && ms[1..] == PackContributions(codec, script, dev, start + 1, pack, cmds[1..])
  {
  }

  /** The empty map is a unit of map union. */
  lemma EmptyUnion(m: FieldMap)
    ensures m + map[] == m && map[] + m == m
  {
  }

  /** The cycle after one main command that did not end the poll. */
  function Advance(codec: Codec, script: Script, dev: Device, c: Cycle, cmd: Command): (c1: Cycle)
  {
    var st := Perform(codec, script, c, cmd, Request(cmd));
    MergeReply(codec, dev, st.cycle, cmd, st.outcome)
  }

  /**
    The first main command ends the poll exactly when its exchange lets a fatal
    exception out; otherwise it adds its contribution and hands over to the rest.
   */
  lemma MainPhaseStep(codec: Codec, script: Script, dev: Device, c: Cycle, cmds: seq<Command>)
    requires cmds != []
    ensures var c1 := Advance(codec, script, dev, c, cmds[0]);
            var fatal := Fatal(Send(codec, cmds[0], script.exchange(c.sent)).outcome);
            && (fatal ==> MainPhase(codec, script, dev, c, cmds).Aborted?)
            && (!fatal ==> MainPhase(codec, script, dev, c, cmds) == MainPhase(codec, script, dev, c1, cmds[1..]))
            && c1.sent == c.sent + 1
            && c1.data == c.data + Contribution(codec, dev, cmds[0], script.exchange(c.sent))
  {
  }

  /** The field map after applying the contributions of `cmds`, met by the exchanges from `sent` on, to `d`. */
  function MainData(codec: Codec, script: Script, dev: Device, d: FieldMap, sent: nat, cmds: seq<Command>): (m: FieldMap)
    decreases |cmds|
  {
    if cmds == [] then d
    else MainData(codec, script, dev, d + Contribution(codec, dev, cmds[0], script.exchange(sent)), sent + 1, cmds[1..])
  }

  /** A main phase that runs to the end leaves the fold of the contributions in the field map. */
  lemma {:induction false} MainPhaseFolds(codec: Codec, script: Script, dev: Device, c: Cycle, cmds: seq<Command>)
    ensures var p := MainPhase(codec, script, dev, c, cmds);
            p.Running? ==> p.cycle.data == MainData(codec, script, dev, c.data, c.sent, cmds)
    decreases |cmds|
  {
    if cmds != [] && MainPhase(codec, script, dev, c, cmds).Running? {
      MainPhaseStep(codec, script, dev, c, cmds);
      MainPhaseFolds(codec, script, dev, Advance(codec, script, dev, c, cmds[0]), cmds[1..]);
    }
  }

  /** The fold of the contributions is the merge of the contributions, applied on top. */
  lemma {:induction false} MainDataMerges(codec: Codec, script: Script, dev: Device, d: FieldMap, sent: nat, cmds: seq<Command>)
    ensures MainData(codec, script, dev, d, sent, cmds) == d + Merged(MainContributions(codec, script, dev, sent, cmds))
    decreases |cmds|
  {
    var ms := MainContributions(codec, script, dev, sent, cmds);
    if cmds == [] {
      assert ms == [];
      EmptyUnion(d);
    } else {
      MainContributionsCons(codec, script, dev, sent, cmds);
      MergedCons(ms);
      MainDataMerges(codec, script, dev, d + ms[0], sent + 1, cmds[1..]);
      UnionAssociative(d, ms[0], Merged(ms[1..]));
    }
  }

  /**
    A main phase that runs to the end merges the commands' contributions in
    command order, later keys overwriting earlier ones; a command that hit a
    `ParseError` or returned nothing parseable contributes nothing.
   */
  lemma MainPhaseMerges(codec: Codec, script: Script, dev: Device, c: Cycle, cmds: seq<Command>)
    ensures var p := MainPhase(codec, script, dev, c, cmds);
            p.Running? ==> p.cycle.data == c.data + Merged(MainContributions(codec, script, dev, c.sent, cmds))
  {
    MainPhaseFolds(codec, script, dev, c, cmds);
    MainDataMerges(codec, script, dev, c.data, c.sent, cmds);
  }

  /** Whether the command met by exchange `n` lets a fatal exception out. */
  function FatalAt(codec: Codec, script: Script): (bad: (Command, nat) -> bool)
  {
    (cmd: Command, n: nat) => Fatal(Send(codec, cmd, script.exchange(n)).outcome)
  }

  /** No command from `cmds`, the i-th one met by exchange `start + i`, is `bad`. */
  predicate NoneBad(bad: (Command, nat) -> bool, start: nat, cmds: seq<Command>)
    decreases |cmds|
  {
    cmds == [] || (!bad(cmds[0], start) && NoneBad(bad, start + 1, cmds[1..]))
  }

  /** The main phase runs to the end exactly when no command, taken in order, meets a fatal exchange. */
  lemma {:induction false} MainPhaseRunsUnlessSomeFatal(codec: Codec, script: Script, dev: Device, c: Cycle, cmds: seq<Command>)
    ensures MainPhase(codec, script, dev, c, cmds).Running? <==> NoneBad(FatalAt(codec, script), c.sent, cmds)
    decreases |cmds|
  {
    if cmds != [] {
      MainPhaseStep(codec, script, dev, c, cmds);
      MainPhaseRunsUnlessSomeFatal(codec, script, dev, Advance(codec, script, dev, c, cmds[0]), cmds[1..]);
    }
  }

  /** The recursive check agrees with the check at every index. */
  lemma {:induction false} NoneBadEveryIndex(bad: (Command, nat) -> bool, start: nat, cmds: seq<Command>)
    ensures NoneBad(bad, start, cmds) <==> forall i :: 0 <= i < |cmds| ==> !bad(cmds[i], start + i)
    decreases |cmds|
  {
    if cmds != [] {
      NoneBadEveryIndex(bad, start + 1, cmds[1..]);
      forall i | 1 <= i < |cmds|
        ensures cmds[i] == cmds[1..][i - 1] && start + i == (start + 1) + (i - 1)
      {
      }
    }
  }

  /** The main phase runs to the end exactly when no command's exchange raises a fatal exception. */
  lemma MainPhaseRunsUnlessFatal(codec: Codec, script: Script, dev: Device, c: Cycle, cmds: seq<Command>)
    ensures MainPhase(codec, script, dev, c, cmds).Running? <==>
              forall i :: 0 <= i < |cmds| ==> !Fatal(Send(codec, cmds[i], script.exchange(c.sent + i)).outcome)
  {
    MainPhaseRunsUnlessSomeFatal(codec, script, dev, c, cmds);
    NoneBadEveryIndex(FatalAt(codec, script), c.sent, cmds);
  }

  /** The main phase writes its commands in order and nothing else. */
  lemma {:induction false} MainPhaseSendsInOrder(codec: Codec, script: Script, dev: Device, c: Cycle, cmds: seq<Command>)
    ensures var p := MainPhase(codec, script, dev, c, cmds);
            && |p.cycle.trace| - |c.trace| == p.cycle.sent - c.sent <= |cmds|
            && forall i :: |c.trace| <= i < |p.cycle.trace| ==> p.cycle.trace[i] == Request(cmds[i - |c.trace|])
    decreases |cmds|
  {
    if cmds != [] {
      var st := Perform(codec, script, c, cmds[0], Request(cmds[0]));
      if !Fatal(st.outcome) {
        var tail := cmds[1..];
        var c1 := MergeReply(codec, dev, st.cycle, cmds[0], st.outcome);
        MainPhaseSendsInOrder(codec, script, dev, c1, tail);
        var p := MainPhase(codec, script, dev, c1, tail);
        forall i | |c.trace| <= i < |p.cycle.trace|
          ensures p.cycle.trace[i] == Request(cmds[i - |c.trace|])
        {
          if i == |c.trace| {
            assert p.cycle.trace[..|c1.trace|] == c1.trace;
            assert p.cycle.trace[i] == c1.trace[i];
          } else {
            assert tail[i - |c1.trace|] == cmds[i - |c.trace|];
          }
        }
      }
    }
  }

  /** Changes a pack phase made to the field map are all under keys ending in `str(q)` for a pack `q` in range. */
  ghost predicate PackSuffixedChanges(before: FieldMap, after: FieldMap, lo: nat, hi: int) {
    forall k :: k in after && (k !in before || after[k] != before[k]) ==>
      exists q: nat :: lo <= q <= hi && EndsWith(k, Decimal(q))
  }

  /** A merge with a map changes only that map's keys. */
  lemma ChangesComeFrom(before: FieldMap, m: FieldMap, k: string)
    requires k in before + m && (k !in before || (before + m)[k] != before[k])
    ensures k in m
  {
  }

  /** The cycle after one pack command that did not end the poll. */
  function PackAdvance(codec: Codec, script: Script, dev: Device, c: Cycle, pack: nat, cmd: Command): (c1: Cycle)
  {
    var st := Perform(codec, script, c, cmd, Request(cmd));
    MergePackReply(codec, dev, st.cycle, cmd, st.outcome, pack)
  }

  /** The first pack command ends the poll exactly when its exchange is fatal; otherwise it adds its contribution and hands over to the rest. */
  lemma PackCommandsStep(codec: Codec, script: Script, dev: Device, c: Cycle, pack: nat, cmds: seq<Command>)
    requires cmds != []
    ensures var c1 := PackAdvance(codec, script, dev, c, pack, cmds[0]);
            var fatal := Fatal(Send(codec, cmds[0], script.exchange(c.sent)).outcome);
            && (fatal ==> PackCommands(codec, script, dev, c, pack, cmds).Aborted?)
            && (!fatal ==> PackCommands(codec, script, dev, c, pack, cmds) == PackCommands(codec, script, dev, c1, pack, cmds[1..]))
            && c1.sent == c.sent + 1
            && c1.data == c.data + PackContribution(codec, dev, cmds[0], script.exchange(c.sent), pack)
  {
  }

  /** The field map after applying the pack contributions of `cmds`, met by the exchanges from `sent` on, to `d`. */
  function PackData(codec: Codec, script: Script, dev: Device, d: FieldMap, sent: nat, pack: nat, cmds: seq<Command>): (m: FieldMap)
    decreases |cmds|
  {
    if cmds == [] then d
    else PackData(codec, script, dev, d + PackContribution(codec, dev, cmds[0], script.exchange(sent), pack), sent + 1, pack, cmds[1..])
  }

  /** Pack commands that run to the end leave the fold of their contributions in the field map. */
  lemma {:induction false} PackCommandsFold(codec: Codec, script: Script, dev: Device, c: Cycle, pack: nat, cmds: seq<Command>)
    ensures var p := PackCommands(codec, script, dev, c, pack, cmds);
            p.Running? ==> p.cycle.data == PackData(codec, script, dev, c.data, c.sent, pack, cmds)
    decreases |cmds|
  {
    if cmds != [] && PackCommands(codec, script, dev, c, pack, cmds).Running? {
      PackCommandsStep(codec, script, dev, c, pack, cmds);
      PackCommandsFold(codec, script, dev, PackAdvance(codec, script, dev, c, pack, cmds[0]), pack, cmds[1..]);
    }
  }

  /** The fold of the pack contributions is their merge, applied on top. */
  lemma {:induction false} PackDataMerges(codec: Codec, script: Script, dev: Device, d: FieldMap, sent: nat, pack: nat, cmds: seq<Command>)
    ensures PackData(codec, script, dev, d, sent, pack, cmds) == d + Merged(PackContributions(codec, script, dev, sent, pack, cmds))
    decreases |cmds|
  {
    var ms := PackContributions(codec, script, dev, sent, pack, cmds);
    if cmds == [] {
      assert ms == [];
      EmptyUnion(d);
    } else {
      PackContributionsCons(codec, script, dev, sent, pack, cmds);
      MergedCons(ms);
      PackDataMerges(codec, script, dev, d + ms[0], sent + 1, pack, cmds[1..]);
      UnionAssociative(d, ms[0], Merged(ms[1..]));
    }
  }

  /** The pack commands for one pack, run to the end, merge their contributions in order. */
  lemma PackCommandsMerge(codec: Codec, script: Script, dev: Device, c: Cycle, pack: nat, cmds: seq<Command>)
    ensures var p := PackCommands(codec, script, dev, c, pack, cmds);
            p.Running? ==> p.cycle.data == c.data + Merged(PackContributions(codec, script, dev, c.sent, pack, cmds))
  {
    PackCommandsFold(codec, script, dev, c, pack, cmds);
    PackDataMerges(codec, script, dev, c.data, c.sent, pack, cmds);
  }

  /** Whether or not they run to the end, the pack commands change only keys suffixed with the pack number. */
  lemma {:induction false} PackCommandsSuffixes(codec: Codec, script: Script, dev: Device, c: Cycle, pack: nat, cmds: seq<Command>)
    ensures PackSuffixedChanges(c.data, PackCommands(codec, script, dev, c, pack, cmds).cycle.data, pack, pack)
    decreases |cmds|
  {
    if cmds != [] {
      var st := Perform(codec, script, c, cmds[0], Request(cmds[0]));
      if !Fatal(st.outcome) {
        var m := PackFields(codec, dev, cmds[0], st.outcome, pack);
        var c1 := MergePackReply(codec, dev, st.cycle, cmds[0], st.outcome, pack);
        PackCommandsSuffixes(codec, script, dev, c1, pack, cmds[1..]);
        var p := PackCommands(codec, script, dev, c1, pack, cmds[1..]);
        forall k | k in p.cycle.data && (k !in c.data || p.cycle.data[k] != c.data[k])
          ensures exists q: nat :: pack <= q <= pack && EndsWith(k, Decimal(q))
        {
          if k in c1.data && p.cycle.data[k] == c1.data[k] {
            ChangesComeFrom(c.data, m, k);
            PackFieldsShape(codec, dev, cmds[0], st.outcome, pack);
          }
        }
      }
    }
  }

  /** Over packs `pack` to `pack_num_max`, every changed field sits under a key ending in its pack's number. */
  lemma {:induction false} PackPhaseSuffixes(codec: Codec, script: Script, dev: Device, c: Cycle, pack: nat, cmds: seq<Command>)
    ensures PackSuffixedChanges(c.data, PackPhase(codec, script, dev, c, pack, cmds).cycle.data, pack, dev.packNumMax)
    decreases dev.packNumMax - pack
  {
    if pack <= dev.packNumMax {
      var st := Perform(codec, script, c, dev.packSelect(pack), SelectPack(pack));
      if !st.outcome.Escapes? {
        var inner := PackCommands(codec, script, dev, st.cycle, pack, cmds);
        PackCommandsSuffixes(codec, script, dev, st.cycle, pack, cmds);
        if inner.Running? {
          PackPhaseSuffixes(codec, script, dev, inner.cycle, pack + 1, cmds);
          var p := PackPhase(codec, script, dev, inner.cycle, pack + 1, cmds);
          forall k | k in p.cycle.data && (k !in c.data || p.cycle.data[k] != c.data[k])
            ensures exists q: nat :: pack <= q <= dev.packNumMax && EndsWith(k, Decimal(q))
          {
            if k in inner.cycle.data && p.cycle.data[k] == inner.cycle.data[k] {
              var q: nat :| pack <= q <= pack && EndsWith(k, Decimal(q));
            } else {
              var q: nat :| pack + 1 <= q <= dev.packNumMax && EndsWith(k, Decimal(q));
            }
          }
        }
      }
    }
  }

  /** A `ParseError` leaves the pack phase only from a pack-select exchange, which is then the last call. */
  lemma {:induction false} PackPhaseChecksumFromSelect(codec: Codec, script: Script, dev: Device, c: Cycle, pack: nat, cmds: seq<Command>)
    ensures var p := PackPhase(codec, script, dev, c, pack, cmds);
            p == Aborted(p.cycle, ParseErr) ==> |p.cycle.trace| > 0 && p.cycle.trace[|p.cycle.trace| - 1].SelectPack?
    decreases dev.packNumMax - pack
  {
    if pack <= dev.packNumMax {
      var st := Perform(codec, script, c, dev.packSelect(pack), SelectPack(pack));
      if !st.outcome.Escapes? {
        var inner := PackCommands(codec, script, dev, st.cycle, pack, cmds);
        if inner.Running? {
          PackPhaseChecksumFromSelect(codec, script, dev, inner.cycle, pack + 1, cmds);
        }
      }
    }
  }

  /**
    The packs' contributions merged in pack order: each visited pack
    contributes the merge of its commands' contributions, the commands
    meeting the exchanges right after the pack's select exchange at `start`.
   */
  function PacksMerged(codec: Codec, script: Script, dev: Device, start: nat, pack: nat, cmds: seq<Command>): (m: FieldMap)
    decreases dev.packNumMax - pack
  {
    if pack > dev.packNumMax then map[]
    else Merged(PackContributions(codec, script, dev, start + 1, pack, cmds)) +
         PacksMerged(codec, script, dev, start + 1 + |cmds|, pack + 1, cmds)
  }

  /** Updating with one map and then another is updating with their merge. */
  lemma UpdateTwice(result: FieldMap, d: FieldMap, first: FieldMap, second: FieldMap, both: FieldMap)
    requires result == (d + first) + second && both == first + second
    ensures result == d + both
  {
    UnionAssociative(d, first, second);
  }

  /**
    A pack visit that does not end the poll: its select goes through, its
    commands run to the end and merge their contributions, and the later
    packs follow from the cycle `v` it leaves.
   */
  lemma PackPhaseStep(codec: Codec, script: Script, dev: Device, c: Cycle, pack: nat, cmds: seq<Command>) returns (v: Cycle)
    requires pack <= dev.packNumMax
    ensures PackPhase(codec, script, dev, c, pack, cmds).Running? ==>
              && PackPhase(codec, script, dev, c, pack, cmds) == PackPhase(codec, script, dev, v, pack + 1, cmds)
              && v.sent == c.sent + 1 + |cmds|
              && v.data == c.data + Merged(PackContributions(codec, script, dev, c.sent + 1, pack, cmds))
  {
    var st := Perform(codec, script, c, dev.packSelect(pack), SelectPack(pack));
    PackCommandsMerge(codec, script, dev, st.cycle, pack, cmds);
    v := PackCommands(codec, script, dev, st.cycle, pack, cmds).cycle;
  }

  /** A step that hands a running phase over, with a fold that agrees on both sides, carries the fold's result back. */
  lemma HandOver(p: Phase, p': Phase, d: FieldMap, d': FieldMap)
    requires p.Running? ==> p == p' && d == d'
    requires p'.Running? ==> p'.cycle.data == d'
    ensures p.Running? ==> p.cycle.data == d
  {
  }

  /** Past the last pack the phase ends at once and the fold has nothing left to apply. */
  lemma PackPhaseEnds(codec: Codec, script: Script, dev: Device, c: Cycle, pack: nat, cmds: seq<Command>)
    requires pack > dev.packNumMax
    ensures PackPhase(codec, script, dev, c, pack, cmds) == Running(c)
    ensures PackPhaseData(codec, script, dev, c.data, c.sent, pack, cmds) == c.data
  {
  }

  /** The field map after applying the contributions of packs `pack` on, the select of `pack` being exchange `sent`, to `d`. */
  function PackPhaseData(codec: Codec, script: Script, dev: Device, d: FieldMap, sent: nat, pack: nat, cmds: seq<Command>): (m: FieldMap)
    decreases dev.packNumMax - pack
  {
    if pack > dev.packNumMax then d
    else PackPhaseData(codec, script, dev, d + Merged(PackContributions(codec, script, dev, sent + 1, pack, cmds)),
                       sent + 1 + |cmds|, pack + 1, cmds)
  }

  /** One visited pack applies its contribution, and the fold goes on from the exchange after its commands. */
  lemma PackPhaseDataStep(codec: Codec, script: Script, dev: Device, d: FieldMap, sent: nat, pack: nat, cmds: seq<Command>,
                          d': FieldMap, sent': nat)
    requires pack <= dev.packNumMax
    requires d' == d + Merged(PackContributions(codec, script, dev, sent + 1, pack, cmds)) && sent' == sent + 1 + |cmds|
    ensures PackPhaseData(codec, script, dev, d, sent, pack, cmds) == PackPhaseData(codec, script, dev, d', sent', pack + 1, cmds)
  {
  }

  /** A pack phase that runs to the end leaves the fold of the packs' contributions in the field map. */
  lemma {:induction false} PackPhaseFolds(codec: Codec, script: Script, dev: Device, c: Cycle, pack: nat, cmds: seq<Command>)
    ensures var p := PackPhase(codec, script, dev, c, pack, cmds);
            p.Running? ==> p.cycle.data == PackPhaseData(codec, script, dev, c.data, c.sent, pack, cmds)
    decreases dev.packNumMax - pack
  {
    if pack > dev.packNumMax {
      PackPhaseEnds(codec, script, dev, c, pack, cmds);
    } else {
      var v := PackPhaseStep(codec, script, dev, c, pack, cmds);
      var p := PackPhase(codec, script, dev, c, pack, cmds);
      if p.Running? {
        PackPhaseDataStep(codec, script, dev, c.data, c.sent, pack, cmds, v.data, v.sent);
      }
      PackPhaseFolds(codec, script, dev, v, pack + 1, cmds);
      HandOver(p, PackPhase(codec, script, dev, v, pack + 1, cmds),
               PackPhaseData(codec, script, dev, c.data, c.sent, pack, cmds),
               PackPhaseData(codec, script, dev, v.data, v.sent, pack + 1, cmds));
    }
  }

  /** The fold of the packs' contributions is their merge, applied on top. */
  lemma {:induction false} PackPhaseDataMerges(codec: Codec, script: Script, dev: Device, d: FieldMap, sent: nat, pack: nat,
                                               cmds: seq<Command>)
    ensures PackPhaseData(codec, script, dev, d, sent, pack, cmds) == d + PacksMerged(codec, script, dev, sent, pack, cmds)
    decreases dev.packNumMax - pack
  {
    if pack > dev.packNumMax {
      EmptyUnion(d);
    } else {
      var m0 := Merged(PackContributions(codec, script, dev, sent + 1, pack, cmds));
      var next := sent + 1 + |cmds|;
      PackPhaseDataMerges(codec, script, dev, d + m0, next, pack + 1, cmds);
      UpdateTwice(PackPhaseData(codec, script, dev, d, sent, pack, cmds), d, m0,
                  PacksMerged(codec, script, dev, next, pack + 1, cmds),
                  PacksMerged(codec, script, dev, sent, pack, cmds));
    }
  }

  /**
    A pack phase that runs to the end leaves the starting fields updated,
    pack by pack in order, with each pack's own contribution; the select
    replies contribute nothing.
   */
  lemma PackPhaseMerges(codec: Codec, script: Script, dev: Device, c: Cycle, pack: nat, cmds: seq<Command>)
    ensures var p := PackPhase(codec, script, dev, c, pack, cmds);
            p.Running? ==> p.cycle.data == c.data + PacksMerged(codec, script, dev, c.sent, pack, cmds)
  {
    PackPhaseFolds(codec, script, dev, c, pack, cmds);
    PackPhaseDataMerges(codec, script, dev, c.data, c.sent, pack, cmds);
  }

  /** A pack phase that runs to the end makes a select and one exchange per pack command for every visited pack. */
  lemma {:induction false} PackPhaseSends(codec: Codec, script: Script, dev: Device, c: Cycle, pack: nat, cmds: seq<Command>)
    ensures var p := PackPhase(codec, script, dev, c, pack, cmds);
            p.Running? ==> p.cycle.sent == c.sent + PackExchanges(dev, pack, |cmds| + 1)
    decreases dev.packNumMax - pack
  {
    if pack > dev.packNumMax {
      PackPhaseEnds(codec, script, dev, c, pack, cmds);
    } else {
      var v := PackPhaseStep(codec, script, dev, c, pack, cmds);
      PackPhaseSends(codec, script, dev, v, pack + 1, cmds);
    }
  }

  /**
    An exchange interrupted by a fault the send does not catch ends the main
    phase with that fault, and is the last exchange it makes.
   */
  lemma {:induction false} MainPhaseStopsAtInterrupt(codec: Codec, script: Script, dev: Device, c: Cycle, cmds: seq<Command>,
                                                     n: nat, f: Fault)
    requires script.exchange(n) == Interrupted(f) && !SwallowedBySend(f)
    requires c.sent <= n < MainPhase(codec, script, dev, c, cmds).cycle.sent
    ensures var p := MainPhase(codec, script, dev, c, cmds);
            p == Aborted(p.cycle, FaultExc(f)) && p.cycle.sent == n + 1
    decreases |cmds|
  {
    var st := Perform(codec, script, c, cmds[0], Request(cmds[0]));
    if n == c.sent {
      FailuresCollapseToEmpty(codec, cmds[0], [], f);
    } else {
      MainPhaseStep(codec, script, dev, c, cmds);
      MainPhaseStopsAtInterrupt(codec, script, dev, Advance(codec, script, dev, c, cmds[0]), cmds[1..], n, f);
    }
  }

  /** The same for one pack's commands. */
  lemma {:induction false} PackCommandsStopAtInterrupt(codec: Codec, script: Script, dev: Device, c: Cycle, pack: nat,
                                                       cmds: seq<Command>, n: nat, f: Fault)
    requires script.exchange(n) == Interrupted(f) && !SwallowedBySend(f)
    requires c.sent <= n < PackCommands(codec, script, dev, c, pack, cmds).cycle.sent
    ensures var p := PackCommands(codec, script, dev, c, pack, cmds);
            p == Aborted(p.cycle, FaultExc(f)) && p.cycle.sent == n + 1
    decreases |cmds|
  {
    var st := Perform(codec, script, c, cmds[0], Request(cmds[0]));
    FailuresCollapseToEmpty(codec, cmds[0], [], f);
    if n != c.sent {
      PackCommandsStopAtInterrupt(codec, script, dev, PackAdvance(codec, script, dev, c, pack, cmds[0]), pack, cmds[1..], n, f);
    }
  }

  /** The same for the whole pack phase, whether the fault hits a select or a pack command. */
  lemma {:induction false} PackPhaseStopsAtInterrupt(codec: Codec, script: Script, dev: Device, c: Cycle, pack: nat,
                                                     cmds: seq<Command>, n: nat, f: Fault)
    requires script.exchange(n) == Interrupted(f) && !SwallowedBySend(f)
    requires c.sent <= n < PackPhase(codec, script, dev, c, pack, cmds).cycle.sent
    ensures var p := PackPhase(codec, script, dev, c, pack, cmds);
            p == Aborted(p.cycle, FaultExc(f)) && p.cycle.sent == n + 1
    decreases dev.packNumMax - pack
  {
    var st := Perform(codec, script, c, dev.packSelect(pack), SelectPack(pack));
    if n == c.sent {
      FailuresCollapseToEmpty(codec, dev.packSelect(pack), [], f);
    } else if !st.outcome.Escapes? {
      var inner := PackCommands(codec, script, dev, st.cycle, pack, cmds);
      if n < inner.cycle.sent {
        PackCommandsStopAtInterrupt(codec, script, dev, st.cycle, pack, cmds, n, f);
      } else if inner.Running? {
        PackPhaseStopsAtInterrupt(codec, script, dev, inner.cycle, pack + 1, cmds, n, f);
      }
    }
  }

  /**
    Every visited pack's select goes through and none of its commands meets
    a fatal exchange: the select of pack `pack` is exchange `start`, its
    commands the exchanges after it, and the next pack's select follows.
   */
  predicate PackRoundsClear(codec: Codec, script: Script, dev: Device, start: nat, pack: nat, cmds: seq<Command>)
    decreases dev.packNumMax - pack
  {
    pack > dev.packNumMax ||
    (&& !Send(codec, dev.packSelect(pack), script.exchange(start)).outcome.Escapes?
     && NoneBad(FatalAt(codec, script), start + 1, cmds)
     && PackRoundsClear(codec, script, dev, start + 1 + |cmds|, pack + 1, cmds))
  }

  /** One pack's commands run to the end exactly when none of them meets a fatal exchange. */
  lemma {:induction false} PackCommandsRunUnlessSomeFatal(codec: Codec, script: Script, dev: Device, c: Cycle, pack: nat,
                                                          cmds: seq<Command>)
    ensures PackCommands(codec, script, dev, c, pack, cmds).Running? <==> NoneBad(FatalAt(codec, script), c.sent, cmds)
    decreases |cmds|
  {
    if cmds != [] {
      PackCommandsStep(codec, script, dev, c, pack, cmds);
      PackCommandsRunUnlessSomeFatal(codec, script, dev, PackAdvance(codec, script, dev, c, pack, cmds[0]), pack, cmds[1..]);
    }
  }

  /**
    Visiting pack `pack` does not end the poll exactly when its select goes
    through and none of its commands meets a fatal exchange; the later packs
    then start from the cycle `v` it leaves, right after its commands.
   */
  lemma PackVisitClear(codec: Codec, script: Script, dev: Device, c: Cycle, pack: nat, cmds: seq<Command>) returns (v: Cycle)
    requires pack <= dev.packNumMax
    ensures var ok := !Send(codec, dev.packSelect(pack), script.exchange(c.sent)).outcome.Escapes? &&
                      NoneBad(FatalAt(codec, script), c.sent + 1, cmds);
            && (PackPhase(codec, script, dev, c, pack, cmds).Running? <==>
                  ok && PackPhase(codec, script, dev, v, pack + 1, cmds).Running?)
            && v.sent == c.sent + 1 + |cmds|
  {
    var st := Perform(codec, script, c, dev.packSelect(pack), SelectPack(pack));
    var inner := PackCommands(codec, script, dev, st.cycle, pack, cmds);
    PackVisitUnfold(codec, script, dev, c, pack, cmds);
    PackCommandsRunUnlessSomeFatal(codec, script, dev, st.cycle, pack, cmds);
    v := inner.cycle.(sent := c.sent + 1 + |cmds|);
    assert inner.Running? ==> v == inner.cycle;
  }

  /** Visiting a pack is its select, then its commands, then the later packs, each going on only if the last ran. */
  lemma PackVisitUnfold(codec: Codec, script: Script, dev: Device, c: Cycle, pack: nat, cmds: seq<Command>)
    requires pack <= dev.packNumMax
    ensures var st := Perform(codec, script, c, dev.packSelect(pack), SelectPack(pack));
            var inner := PackCommands(codec, script, dev, st.cycle, pack, cmds);
            PackPhase(codec, script, dev, c, pack, cmds).Running? <==>
              !st.outcome.Escapes? && inner.Running? && PackPhase(codec, script, dev, inner.cycle, pack + 1, cmds).Running?
  {
  }

  /**
    The pack phase runs to the end exactly when every select goes through,
    a checksum failure included, and no pack command meets a fatal exchange.
   */
  lemma {:induction false} PackPhaseRunsUnlessFatal(codec: Codec, script: Script, dev: Device, c: Cycle, pack: nat,
                                                    cmds: seq<Command>)
    ensures PackPhase(codec, script, dev, c, pack, cmds).Running? <==> PackRoundsClear(codec, script, dev, c.sent, pack, cmds)
    decreases dev.packNumMax - pack
  {
    if pack > dev.packNumMax {
      PackPhaseEnds(codec, script, dev, c, pack, cmds);
    } else {
      var ok := !Send(codec, dev.packSelect(pack), script.exchange(c.sent)).outcome.Escapes? &&
                NoneBad(FatalAt(codec, script), c.sent + 1, cmds);
      var v := PackVisitClear(codec, script, dev, c, pack, cmds);
      PackPhaseRunsUnlessFatal(codec, script, dev, v, pack + 1, cmds);
      PackRoundsClearStep(codec, script, dev, c.sent, pack, cmds, v.sent);
      IffHandOver(PackPhase(codec, script, dev, c, pack, cmds).Running?, PackRoundsClear(codec, script, dev, c.sent, pack, cmds), ok,
                  PackPhase(codec, script, dev, v, pack + 1, cmds).Running?, PackRoundsClear(codec, script, dev, v.sent, pack + 1, cmds));
    }
  }

  /** One visited pack is clear, and the packs after it start one exchange past its commands. */
  lemma PackRoundsClearStep(codec: Codec, script: Script, dev: Device, start: nat, pack: nat, cmds: seq<Command>, next: nat)
    requires pack <= dev.packNumMax && next == start + 1 + |cmds|
    ensures PackRoundsClear(codec, script, dev, start, pack, cmds) <==>
              && !Send(codec, dev.packSelect(pack), script.exchange(start)).outcome.Escapes?
              && NoneBad(FatalAt(codec, script), start + 1, cmds)
              && PackRoundsClear(codec, script, dev, next, pack + 1, cmds)
  {
  }

  /** Two step-wise characterisations that agree on the rest agree on the whole. */
  lemma IffHandOver(a: bool, b: bool, ok: bool, a': bool, b': bool)
    requires a <==> ok && a'
    requires b <==> ok && b'
    requires a' <==> b'
    ensures a <==> b
  {
  }
}

=== FILE: poll_results.dfy ===
/** What `read_data` returns: merged maps, `None` on fatal errors, and the exceptions it lets out. */
module PollResults {

  import opened Wrappers
  import opened Errors
  import opened Protocol
  import opened Transport
  import opened Requests
  import opened Connection
  import opened Fields
  import opened Poll
  import opened PollProperties
  import opened PollLifecycle

  /** The client connects without raising: already connected, or the first attempt succeeds. */
  predicate Connectable(cfg: Config, script: Script, r: Reader) {
    r.connected || (cfg.maxRetries >= 1 && script.connect(1) == Connects)
  }

  /** The notifier is attached already or `start_notify` succeeds. */
  predicate Notifiable(script: Script, r: Reader) {
    r.hasNotifier || script.startNotify.None?
  }

  /** A client that connects and a notifier that attaches leave the session running. */
  lemma OpenRuns(cfg: Config, script: Script, r: Reader)
    requires Connectable(cfg, script, r) && Notifiable(script, r)
    ensures Open(cfg, script, r).Running?
  {
    ConnectLoopIsSingleAttempt(cfg.maxRetries, r.connected, script.connect);
  }

  /** Teardown appends only `stop_notify` and `disconnect`, so it keeps any property those two share with the trace. */
  lemma TeardownKeeps(cfg: Config, c: Cycle, ok: Action -> bool)
    requires ok(StopNotify) && ok(Disconnect)
    requires forall i :: 0 <= i < |c.trace| ==> ok(c.trace[i])
    ensures var t := Teardown(cfg, c).trace;
            forall i :: 0 <= i < |t| ==> ok(t[i])
  {
    var t := Teardown(cfg, c).trace;
    forall i | 0 <= i < |t|
      ensures ok(t[i])
    {
      if i >= |c.trace| {
        assert t[i] in t[|c.trace|..];
      }
    }
  }

  /** A filtered session body sends only filter commands and never selects a pack. */
  lemma FilteredBodyTraffic(cfg: Config, codec: Codec, script: Script, dev: Device, r: Reader, fs: seq<Command>)
    ensures var t := Body(cfg, codec, script, dev, r, Some(fs)).cycle.trace;
            forall i :: 0 <= i < |t| ==> !t[i].SelectPack? && (t[i].Request? ==> t[i].command in fs)
  {
    var o := Open(cfg, script, r);
    var t := Body(cfg, codec, script, dev, r, Some(fs)).cycle.trace;
    if o.Running? {
      MainPhaseSendsInOrder(codec, script, dev, o.cycle, fs);
      SessionExtendsOpen(cfg, codec, script, dev, r, fs, []);
      forall i | 0 <= i < |t|
        ensures !t[i].SelectPack? && (t[i].Request? ==> t[i].command in fs)
      {
        if i < |o.cycle.trace| {
          assert t[i] == o.cycle.trace[i];
        }
      }
    }
  }

  /**
    With a filter, only the filter's commands are written, and no pack is
    ever selected.
   */
  lemma FilterDisablesPackPolling(cfg: Config, codec: Codec, script: Script, device: Option<Device>, r: Reader,
                                  fs: seq<Command>)
    ensures var run := ReadData(cfg, codec, script, device, r, Some(fs));
            forall i :: 0 <= i < |run.trace| ==>
              !run.trace[i].SelectPack? && (run.trace[i].Request? ==> run.trace[i].command in fs)
  {
    if device.Some? {
      var body := Body(cfg, codec, script, device.value, r, Some(fs));
      ReadDataUnfold(cfg, codec, script, device.value, r, Some(fs));
      FilteredBodyTraffic(cfg, codec, script, device.value, r, fs);
      TeardownKeeps(cfg, body.cycle, (a: Action) => !a.SelectPack? && (a.Request? ==> a.command in fs));
    }
  }

  /** A filtered poll that returns a map returns exactly the merge of the filter commands' contributions. */
  lemma FilteredPollMerges(cfg: Config, codec: Codec, script: Script, dev: Device, r: Reader, fs: seq<Command>)
    ensures var run := ReadData(cfg, codec, script, Some(dev), r, Some(fs));
            run.result.Returned? && run.result.data.Some? ==>
              run.result.data.value == Merged(MainContributions(codec, script, dev, 0, fs))
  {
    var o := Open(cfg, script, r);
    ReadDataUnfold(cfg, codec, script, dev, r, Some(fs));
    if o.Running? {
      MainPhaseMerges(codec, script, dev, o.cycle, fs);
      EmptyUnion(Merged(MainContributions(codec, script, dev, 0, fs)));
    }
  }

  /**
    Once connected, a filtered poll returns a (possibly partial) map exactly
    when no exchange raised a fatal exception: per-command timeouts, device
    exceptions, AT echoes, Bleak errors and checksum failures only drop that
    command's fields.
   */
  lemma FilteredPollKeepsMapUnlessFatal(cfg: Config, codec: Codec, script: Script, dev: Device, r: Reader,
                                        fs: seq<Command>)
    requires Connectable(cfg, script, r) && Notifiable(script, r)
    ensures var run := ReadData(cfg, codec, script, Some(dev), r, Some(fs));
            run.result.Returned? && run.result.data.Some? <==>
              forall i :: 0 <= i < |fs| ==> !Fatal(Send(codec, fs[i], script.exchange(i)).outcome)
  {
    ReadDataUnfold(cfg, codec, script, dev, r, Some(fs));
    OutcomeIsMapWhenRunning(Body(cfg, codec, script, dev, r, Some(fs)));
    var m := SessionRunsAfterMain(cfg, codec, script, dev, r, fs, []);
  }

  /** `read_data` returns a map exactly when its body ran to the end. */
  lemma OutcomeIsMapWhenRunning(p: Phase)
    ensures Outcome(p).Returned? && Outcome(p).data.Some? <==> p.Running?
  {
  }

  /**
    A checksum `ParseError` leaves `read_data` only from a pack-select
    exchange: the main and pack commands catch it.
   */
  lemma ChecksumEscapesOnlyFromPackSelect(cfg: Config, codec: Codec, script: Script, dev: Device, r: Reader,
                                          filter: Option<seq<Command>>)
    ensures var run := ReadData(cfg, codec, script, Some(dev), r, filter);
            var trace := Body(cfg, codec, script, dev, r, filter).cycle.trace;
            run.result == Raises(ParseErr) ==> filter.None? && |trace| > 0 && trace[|trace| - 1].SelectPack?
  {
    ReadDataUnfold(cfg, codec, script, dev, r, filter);
    SessionChecksumFromSelect(cfg, codec, script, dev, r,
                              PolledCommands(dev, filter), PolledPackCommands(dev, filter));
  }

  /** A session ends with a `ParseError` only in its pack phase, right after a pack select. */
  lemma SessionChecksumFromSelect(cfg: Config, codec: Codec, script: Script, dev: Device, r: Reader,
                                  polling: seq<Command>, packs: seq<Command>)
    ensures var s := Session(cfg, codec, script, dev, r, polling, packs);
            s == Aborted(s.cycle, ParseErr) ==> |packs| > 0 && |s.cycle.trace| > 0 && s.cycle.trace[|s.cycle.trace| - 1].SelectPack?
  {
    var o := Open(cfg, script, r);
    if o.Running? {
      var main := MainPhase(codec, script, dev, o.cycle, polling);
      if main.Running? {
        PackPhaseChecksumFromSelect(codec, script, dev, main.cycle, 1, packs);
      }
    }
  }

  /**
    A checksum failure on the first pack-select write is not caught: after
    the teardown, `read_data` raises the `ParseError` instead of returning
    the main-phase fields.
   */
  lemma PackSelectChecksumEscapes(cfg: Config, codec: Codec, script: Script, dev: Device, r: Reader)
    requires Connectable(cfg, script, r) && Notifiable(script, r)
    requires |dev.packPollingCommands| > 0 && dev.packNumMax >= 1
    requires forall i :: 0 <= i < |dev.pollingCommands| ==>
               !Fatal(Send(codec, dev.pollingCommands[i], script.exchange(i)).outcome)
    requires Send(codec, dev.packSelect(1), script.exchange(|dev.pollingCommands|)).outcome == Escapes(ParseErr)
    ensures ReadData(cfg, codec, script, Some(dev), r, None).result == Raises(ParseErr)
  {
    var o := Open(cfg, script, r);
    OpenRuns(cfg, script, r);
    ReadDataUnfold(cfg, codec, script, dev, r, None);
    MainPhaseRunsUnlessFatal(codec, script, dev, o.cycle, dev.pollingCommands);
  }

  /**
    Without a filter, every field of the returned map that the main commands
    did not produce sits under a key ending in `str(p)` for a pack p from 1
    to `pack_num_max`.
   */
  lemma UnfilteredPollFields(cfg: Config, codec: Codec, script: Script, dev: Device, r: Reader)
    ensures var run := ReadData(cfg, codec, script, Some(dev), r, None);
            run.result.Returned? && run.result.data.Some? ==>
              PackSuffixedChanges(Merged(MainContributions(codec, script, dev, 0, dev.pollingCommands)),
                                  run.result.data.value, 1, dev.packNumMax)
  {
    var o := Open(cfg, script, r);
    ReadDataUnfold(cfg, codec, script, dev, r, None);
    if o.Running? {
      var main := MainPhase(codec, script, dev, o.cycle, dev.pollingCommands);
      MainPhaseMerges(codec, script, dev, o.cycle, dev.pollingCommands);
      EmptyUnion(Merged(MainContributions(codec, script, dev, 0, dev.pollingCommands)));
      if main.Running? && |dev.packPollingCommands| > 0 {
        PackPhaseSuffixes(codec, script, dev, main.cycle, 1, dev.packPollingCommands);
      }
    }
  }

  /** An exchange the session reaches, interrupted by a fault the send does not catch, ends the session with that fault. */
  lemma SessionStopsAtInterrupt(cfg: Config, codec: Codec, script: Script, dev: Device, r: Reader,
                                polling: seq<Command>, packs: seq<Command>, n: nat, f: Fault)
    requires script.exchange(n) == Interrupted(f) && !SwallowedBySend(f)
    requires n < Session(cfg, codec, script, dev, r, polling, packs).cycle.sent
    ensures var p := Session(cfg, codec, script, dev, r, polling, packs);
            p == Aborted(p.cycle, FaultExc(f))
  {
    var o := Open(cfg, script, r);
    if o.Running? {
      var main := MainPhase(codec, script, dev, o.cycle, polling);
      if n < main.cycle.sent {
        MainPhaseStopsAtInterrupt(codec, script, dev, o.cycle, polling, n, f);
      } else if main.Running? && |packs| > 0 {
        PackPhaseStopsAtInterrupt(codec, script, dev, main.cycle, 1, packs, n, f);
      }
    }
  }

  /**
    The poll deadline firing during an exchange the poll reaches makes
    `read_data` return `None` rather than the fields gathered so far, with or
    without a filter; any other exception the send lets out leaves
    `read_data`.
   */
  lemma InterruptedExchangeEndsPoll(cfg: Config, codec: Codec, script: Script, dev: Device, r: Reader,
                                    filter: Option<seq<Command>>, n: nat, f: Fault)
    requires script.exchange(n) == Interrupted(f)
    requires n < Body(cfg, codec, script, dev, r, filter).cycle.sent
    ensures f == PollDeadline ==> ReadData(cfg, codec, script, Some(dev), r, filter).result == Returned(None)
    ensures f == OtherFault ==> ReadData(cfg, codec, script, Some(dev), r, filter).result == Raises(FaultExc(OtherFault))
  {
    ReadDataUnfold(cfg, codec, script, dev, r, filter);
    if !SwallowedBySend(f) {
      SessionStopsAtInterrupt(cfg, codec, script, dev, r, PolledCommands(dev, filter), PolledPackCommands(dev, filter), n, f);
    }
  }

  /**
    A failing connect, or a failing `start_notify` once connected, ends the
    poll before any exchange: a `BleakError`, a `TimeoutError` or the poll
    deadline gives `None`, any other exception leaves `read_data`.
   */
  lemma OpeningFailureEndsPoll(cfg: Config, codec: Codec, script: Script, dev: Device, r: Reader,
                               filter: Option<seq<Command>>, f: Fault)
    ensures var result := ReadData(cfg, codec, script, Some(dev), r, filter).result;
            (!r.connected && cfg.maxRetries >= 1 && script.connect(1) == ConnectRaises(f)) ||
            (Connectable(cfg, script, r) && !r.hasNotifier && script.startNotify == Some(f)) ==>
              && (f != OtherFault ==> result == Returned(None))
              && (f == OtherFault ==> result == Raises(FaultExc(OtherFault)))
  {
    ConnectLoopIsSingleAttempt(cfg.maxRetries, r.connected, script.connect);
    ReadDataUnfold(cfg, codec, script, dev, r, filter);
  }

  /**
    A session that runs to the end has merged the main commands'
    contributions into an empty map and sent one exchange per main command
    before the pack phase starts from the cycle `m`.
   */
  lemma SessionAfterMain(cfg: Config, codec: Codec, script: Script, dev: Device, r: Reader,
                         polling: seq<Command>, packs: seq<Command>) returns (m: Cycle)
    ensures var s := Session(cfg, codec, script, dev, r, polling, packs);
            s.Running? ==>
              && m.data == Merged(MainContributions(codec, script, dev, 0, polling))
              && m.sent == |polling|
              && s == (if |packs| > 0 then PackPhase(codec, script, dev, m, 1, packs) else Running(m))
  {
    var o := Open(cfg, script, r);
    var main := MainPhase(codec, script, dev, o.cycle, polling);
    MainPhaseMerges(codec, script, dev, o.cycle, polling);
    EmptyUnion(Merged(MainContributions(codec, script, dev, 0, polling)));
    m := main.cycle;
  }

  /**
    Once connected, the session runs to the end exactly when no main command
    meets a fatal exchange and the pack phase, started from the cycle `m`
    one exchange per main command in, runs to the end.
   */
  lemma SessionRunsAfterMain(cfg: Config, codec: Codec, script: Script, dev: Device, r: Reader,
                             polling: seq<Command>, packs: seq<Command>) returns (m: Cycle)
    requires Connectable(cfg, script, r) && Notifiable(script, r)
    ensures Session(cfg, codec, script, dev, r, polling, packs).Running? <==>
              && (forall i :: 0 <= i < |polling| ==> !Fatal(Send(codec, polling[i], script.exchange(i)).outcome))
              && (|packs| > 0 ==> PackPhase(codec, script, dev, m, 1, packs).Running?)
    ensures m.sent == |polling|
  {
    var o := Open(cfg, script, r);
    OpenRuns(cfg, script, r);
    var main := MainPhase(codec, script, dev, o.cycle, polling);
    MainPhaseRunsUnlessFatal(codec, script, dev, o.cycle, polling);
    assert o.cycle.sent == 0;
    m := main.cycle.(sent := |polling|);
    assert main.Running? ==> m == main.cycle;
  }

  /**
    Once connected, an unfiltered poll returns a (possibly partial) map
    exactly when no main command meets a fatal exchange and, when there are
    pack commands, every pack's select goes through, a checksum failure
    included, and no pack command meets a fatal exchange.
   */
  lemma UnfilteredPollKeepsMapUnlessFatal(cfg: Config, codec: Codec, script: Script, dev: Device, r: Reader)
    requires Connectable(cfg, script, r) && Notifiable(script, r)
    ensures var run := ReadData(cfg, codec, script, Some(dev), r, None);
            var polling := dev.pollingCommands;
            run.result.Returned? && run.result.data.Some? <==>
              && (forall i :: 0 <= i < |polling| ==> !Fatal(Send(codec, polling[i], script.exchange(i)).outcome))
              && (|dev.packPollingCommands| > 0 ==> PackRoundsClear(codec, script, dev, |polling|, 1, dev.packPollingCommands))
  {
    ReadDataUnfold(cfg, codec, script, dev, r, None);
    OutcomeIsMapWhenRunning(Body(cfg, codec, script, dev, r, None));
    var m := SessionRunsAfterMain(cfg, codec, script, dev, r, dev.pollingCommands, dev.packPollingCommands);
    PackPhaseRunsUnlessFatal(codec, script, dev, m, 1, dev.packPollingCommands);
  }

  /**
    An unfiltered poll that returns a map returns the main commands'
    contributions merged in order, then updated pack by pack with each
    pack's own contribution, the first select following the last main
    command.
   */
  lemma UnfilteredPollMerges(cfg: Config, codec: Codec, script: Script, dev: Device, r: Reader)
    ensures var run := ReadData(cfg, codec, script, Some(dev), r, None);
            var polling := dev.pollingCommands;
            var packs := dev.packPollingCommands;
            run.result.Returned? && run.result.data.Some? ==>
              run.result.data.value ==
                Merged(MainContributions(codec, script, dev, 0, polling)) +
                (if |packs| > 0 then PacksMerged(codec, script, dev, |polling|, 1, packs) else map[])
  {
    ReadDataUnfold(cfg, codec, script, dev, r, None);
    OutcomeIsMapWhenRunning(Body(cfg, codec, script, dev, r, None));
    var m := SessionAfterMain(cfg, codec, script, dev, r, dev.pollingCommands, dev.packPollingCommands);
    PackPhaseMerges(codec, script, dev, m, 1, dev.packPollingCommands);
    EmptyUnion(m.data);
  }
}

=== FILE: protocol.dfy ===
/**
  Commands and the codec the reader consults. The codec's predicates are
  defined with the commands outside this model, so they appear here as the
  function-valued fields of a record that every operation takes as a parameter.
 */
module Protocol {

  import opened Wrappers
  import opened Bytes

  datatype FunctionCode = ReadHoldingRegisters | WriteSingleRegister

  /** A Modbus request: function, starting register, and register count or value. */
  datatype Command = Command(code: FunctionCode, startingAddress: nat, operand: nat)

  datatype Codec = Codec(
    /** `command.response_size()`: bytes of a complete response frame */
    responseSize: Command -> nat,
    /** `command.is_valid_response(buffer)`: the checksum holds */
    isValidResponse: (Command, Bytes) -> bool,
    /** `command.is_exception_response(buffer)`: a device-signalled exception frame */
    isExceptionResponse: (Command, Bytes) -> bool,
    /** `command.parse_response(bytes)`: the register payload, or `None` for a `ParseError` */
    parseResponse: (Command, Bytes) -> Option<Bytes>)
}

=== FILE: requests.dfy ===
/** One command exchange: `DeviceReader._async_send_command`. */
module Requests {

  import opened Wrappers
  import opened Bytes
  import opened Errors
  import opened Protocol
  import opened Correlator
  import opened Transport

  /** What the send returns (possibly empty bytes) or the exception it lets through. */
  datatype SendOutcome = Reply(data: Bytes) | Escapes(exc: Exc)

  /** The exchange fields after the send, and its outcome. */
  datatype Sent = Sent(exchange: Exchange, outcome: SendOutcome)

  /** Before the write: the command is current, a fresh future is pending and the buffer is empty. */
  function Prepare(cmd: Command): (x: Exchange)
    ensures Wellformed(x)
  {
    Exchange(Pending, Some(cmd), [])
  }

  /**
    Send a command and await its response. Timeouts, Modbus exceptions,
    bad-connection echoes and Bleak errors all come back as empty bytes; a
    checksum failure escapes as a `ParseError`. Every field of the exchange is
    overwritten before the write, so the previous exchange is not an input.
   */
  function Send(codec: Codec, cmd: Command, script: ExchangeScript): (s: Sent)
    ensures Wellformed(s.exchange) && s.exchange.command == Some(cmd)
    ensures script.Delivers? ==> s.exchange.future.Done?
    ensures s.outcome.Reply? && s.outcome.data != [] ==>
              |s.outcome.data| == codec.responseSize(cmd) && codec.isValidResponse(cmd, s.outcome.data)
    ensures s.outcome == Escapes(ParseErr) ==>
              script.Delivers? && |s.exchange.buffer| == codec.responseSize(cmd) &&
              !codec.isValidResponse(cmd, s.exchange.buffer)
    ensures s.outcome.Escapes? && s.outcome.exc.FaultExc? ==>
              script == Interrupted(s.outcome.exc.fault) && !SwallowedBySend(s.outcome.exc.fault)
  {
    var x := Prepare(cmd);
    match script
    case Interrupted(f) =>
      Sent(x, if SwallowedBySend(f) then Reply([]) else Escapes(FaultExc(f)))
    case Delivers(chunks) =>
      var x' := NotifyAll(codec, x, chunks);
      match x'.future
      case Done(Value(data)) => Sent(x', Reply(data))
      case Done(Raised(ChecksumFailed)) => Sent(x', Escapes(ParseErr))
      case Done(Raised(_)) => Sent(x', Reply([]))
      case _ => Sent(x'.(future := Done(Cancelled)), Reply([]))
  }

  /**
    Timeouts, device exception frames, AT echoes and Bleak errors collapse to
    empty bytes; a checksum failure and any other fault escape.
   */
  lemma FailuresCollapseToEmpty(codec: Codec, cmd: Command, chunks: seq<Bytes>, f: Fault)
    ensures SwallowedBySend(f) ==> Send(codec, cmd, Interrupted(f)).outcome == Reply([])
    ensures !SwallowedBySend(f) ==> Send(codec, cmd, Interrupted(f)).outcome == Escapes(FaultExc(f))
    // the per-command timeout: the chunks, however many bytes they carried, leave the future pending
    ensures NotifyAll(codec, Prepare(cmd), chunks).future.Pending? ==>
              Send(codec, cmd, Delivers(chunks)).outcome == Reply([])
    // any handler exception but the checksum one, after however many earlier bytes
    ensures forall e :: NotifyAll(codec, Prepare(cmd), chunks).future == Done(Raised(e)) && e != ChecksumFailed ==>
              Send(codec, cmd, Delivers(chunks)).outcome == Reply([])
    // a resolved value is returned as is
    ensures NotifyAll(codec, Prepare(cmd), chunks).future.Done? &&
            NotifyAll(codec, Prepare(cmd), chunks).future.resolution.Value? ==>
              Send(codec, cmd, Delivers(chunks)).outcome == Reply(NotifyAll(codec, Prepare(cmd), chunks).future.resolution.data)
    // no notification before the per-command timeout
    ensures Send(codec, cmd, Delivers([])).outcome == Reply([])
    // an AT echo first, whatever follows it
    ensures |chunks| > 0 && IsAtEcho(chunks[0]) ==> Send(codec, cmd, Delivers(chunks)).outcome == Reply([])
    // a device exception frame
    ensures |chunks| == 1 && !IsAtEcho(chunks[0]) && |chunks[0]| != codec.responseSize(cmd) &&
            codec.isExceptionResponse(cmd, chunks[0]) && |chunks[0]| > 2 ==>
              Send(codec, cmd, Delivers(chunks)).outcome == Reply([])
  {
    if |chunks| > 0 && IsAtEcho(chunks[0]) {
      ResolutionIsFinal(codec, Prepare(cmd), [chunks[0]], chunks[1..]);
      assert [chunks[0]] + chunks[1..] == chunks;
    }
    if |chunks| == 1 {
      OneChunk(codec, Prepare(cmd), chunks[0]);
      assert chunks == [chunks[0]];
    }
  }

  /** One notification is one step of the handler. */
  lemma OneChunk(codec: Codec, x: Exchange, chunk: Bytes)
    requires Wellformed(x)
    ensures NotifyAll(codec, x, [chunk]) == Notify(codec, x, chunk)
  {
    assert [chunk][1..] == [];
  }

  /** A complete frame whose checksum fails propagates as a `ParseError`; a valid one is returned whole. */
  lemma CompleteFrameOutcome(codec: Codec, cmd: Command, frame: Bytes)
    requires !IsAtEcho(frame) && |frame| == codec.responseSize(cmd)
    ensures codec.isValidResponse(cmd, frame) ==> Send(codec, cmd, Delivers([frame])).outcome == Reply(frame)
    ensures !codec.isValidResponse(cmd, frame) ==> Send(codec, cmd, Delivers([frame])).outcome == Escapes(ParseErr)
  {
    OneChunk(codec, Prepare(cmd), frame);
    assert Prepare(cmd).buffer + frame == frame;
  }

  /** A response split over several notifications gives the same send outcome as one notification. */
  lemma FragmentedSend(codec: Codec, cmd: Command, chunks: seq<Bytes>)
    requires |chunks| > 0
    requires forall i :: 0 <= i < |chunks| ==> !IsAtEcho(chunks[i])
    requires !IsAtEcho(Concat(chunks))
    requires forall i :: 0 < i < |chunks| ==> Incomplete(codec, cmd, Concat(chunks[..i]))
    ensures Send(codec, cmd, Delivers(chunks)) == Send(codec, cmd, Delivers([Concat(chunks)]))
  {
    var x := Prepare(cmd);
    forall i | 0 < i < |chunks|
      ensures Incomplete(codec, cmd, x.buffer + Concat(chunks[..i]))
    {
      assert x.buffer + Concat(chunks[..i]) == Concat(chunks[..i]);
    }
    FragmentedEqualsWhole(codec, x, chunks);
    OneChunk(codec, x, Concat(chunks));
    SameFoldSameSend(codec, cmd, chunks, [Concat(chunks)]);
  }

  /** The send depends on the notifications only through the handler's final state. */
  lemma SameFoldSameSend(codec: Codec, cmd: Command, a: seq<Bytes>, b: seq<Bytes>)
    requires NotifyAll(codec, Prepare(cmd), a) == NotifyAll(codec, Prepare(cmd), b)
    ensures Send(codec, cmd, Delivers(a)) == Send(codec, cmd, Delivers(b))
  {
  }
}

=== FILE: transport.dfy ===
/**
  The BLE transport, replaced by scripted outcomes: which connect attempts
  succeed, whether subscribing to notifications fails, and what happens to
  each command exchange, numbered in the order the reader sends them.
 */
module Transport {

  import opened Wrappers
  import opened Bytes
  import opened Errors

  /** The outcome of one `client.connect()` call. */
  datatype ConnectOutcome = Connects | ConnectRaises(fault: Fault)

  /**
    What follows one `write_gatt_char`: either the write goes through and
    these notification chunks arrive before the per-command timeout, or the
    write (or the poll deadline while awaiting) raises the fault.
   */
  datatype ExchangeScript = Delivers(chunks: seq<Bytes>) | Interrupted(fault: Fault)

  datatype Script = Script(
    /** the outcome of a connect call made on the given attempt number */
    connect: int -> ConnectOutcome,
    /** `start_notify`: `None` when it succeeds */
    startNotify: Option<Fault>,
    /** the fate of the n-th exchange of the poll, counting from 0 */
    exchange: nat -> ExchangeScript)
}

=== FILE: wrappers.dfy ===
/** Optional values, standing for the places where the reader uses `None`. */
module Wrappers {

  datatype Option<+T> = None | Some(value: T) {

    /** The value, or `default` when there is none. */
    function GetOr(default: T): T {
      match this
      case Some(v) => v
      case None => default
    }
  }
}
